=== FILE: README.md ===
# Vulkanator in Dafny

Vulkanator is an After Effects effect plug-in. It renders every frame with
Vulkan:

- **GlobalSetup**, once per plug-in load, picks a physical device. It then
  creates the logical device, the command pool, one render pass and one
  graphics pipeline per colour depth (8, 16 and 32 bits per channel), the
  descriptor pool, the descriptor-set layout, the shader modules and the
  vertex buffer holding a full-screen quad.
- **SequenceSetup**, once per effect instance, allocates a command buffer, a
  fence, a descriptor set and a uniform buffer.
- **SmartPreRender** records the depth class of the frame (`bitdepth / 16`).
- **SmartRender** keeps a per-sequence cache of a staging buffer and two
  images. It uploads the input layer, draws the quad with the pipeline of the
  frame's depth class, copies the output image back, submits the work and
  waits on the fence.

This project models that core as pure functions over immutable data. Every
Vulkan call is an answer supplied as data: an "oracle" record saying whether
the call succeeds and which handle it returns. The modules are:

| module | what it models |
|---|---|
| `Wrappers` | `Option` and `Result` |
| `VkTypes` | handles, formats, layouts, memory properties, create-infos, and the plug-in's error outcomes |
| `VulkanUtils` | `DepthToFormat`, the memory-type search, `AllocateDeviceMemory`, `AllocateBuffer`, `AllocateImage`, `LoadShaderModule` and `GetLargestPhysicalDeviceHeap` |
| `StableSort` | a stable sort by decreasing key and the per-key filter that states its stability |
| `DeviceSelection` | the stable partition and stable sort that choose the physical device |
| `ShaderInterface` | the `Vertex` layout and its attribute descriptions, the `Quad`, the std140 `Uniforms` block, the parameter numbering and the 16-bit white level |
| `PipelineCatalog` | render passes, descriptor layout and pool, pipelines and `GlobalSetup` |
| `LayoutTracking` | the commands SmartRender records, replayed against the image layouts they expect and set |
| `FrameResources` | the staging-buffer and image cache of a sequence |
| `FenceSync` | submit, wait and reset of the sequence fence across frames |
| `Render` | `SequenceSetup`, the depth and pixel-size tables, the sampler filter and one whole `SmartRender` |

Outcomes other than `PF_Err_NONE` are modelled as `PluginError` values:

- `InternalStructDamaged` and `OutOfMemory` are the error codes the source returns.
- `UncaughtOutOfRange` stands for a `std::out_of_range` thrown by `.at`.
- `UncaughtBadOptionalAccess` stands for a `std::bad_optional_access` thrown by `.value()` on a failed allocation.

`EntryPoint` catches only `PF_Err&`, so those two exceptions escape to the host.

On one point the header and the code disagree, and the model follows the code:
the header declares no `InputImageInfoCache`, yet SmartRender reads and writes
one. The cache in the model has an input slot and an output slot.

The shrink rule reallocates the staging buffer when the surplus exceeds
`size_t(S * 0.15f)` of the cached size `S`; `ShrinkAllowance` models that
comparison.

## Model

| member | source | states |
|---|---|---|
| VulkanUtils.DepthToFormat | include/VulkanUtils.hpp:24-32 | depth classes 0, 1, 2 give R8G8B8A8 UNORM, R16G16B16A16 UNORM and R32G32B32A32 SFLOAT; any larger class is out of range, never clamped |
| VulkanUtils.FindMemoryTypeIndex | source/VulkanUtils.cpp:11-38 | -1 exactly when no memory type is allowed by the mask, has every required flag and none of the excluded flags; otherwise the least such index |
| VulkanUtils.FindMemoryTypeIndexIgnoresHighMaskBits | source/VulkanUtils.cpp:19-35 | mask bits at or above memoryTypeCount never change the answer |
| VulkanUtils.SingleBitMaskSelectsOnlyThatType | source/VulkanUtils.cpp:21-32 | a single-bit mask selects that type when it qualifies, and gives -1 when the type carries an excluded flag |
| VulkanUtils.AllocateDeviceMemory | source/VulkanUtils.cpp:40-71 | memory exists exactly when the allocation succeeds, with the requested size and type index and the given dedicated buffer or image |
| VulkanUtils.AllocateBuffer | source/VulkanUtils.cpp:73-137 | succeeds exactly when create, type search, allocation and bind all succeed; the memory is dedicated to the buffer, has the required size, is of the first suitable type and is bound at offset 0 |
| VulkanUtils.AllocateImage | source/VulkanUtils.cpp:139-197 | the same for images, with the memory dedicated to the image and the image keeping its create-info |
| VulkanUtils.DefaultExclusionAvoidsProtectedMemory | include/VulkanUtils.hpp:49-55 | with the default arguments a buffer is exclusive and never lands in protected memory |
| VulkanUtils.LoadShaderModule | source/VulkanUtils.cpp:199-226 | rejects empty code and code whose length is not a multiple of 4 before calling the driver; otherwise codeSize is the byte length and the code is read as 4-byte words that concatenate back to it |
| VulkanUtils.CodeWordsRoundTrip | source/VulkanUtils.cpp:208-211 | reading the code as 32-bit words loses and reorders no byte |
| VulkanUtils.ShaderLengthGuardExamples | source/VulkanUtils.cpp:202-206 | lengths 3 and 5 are refused whatever the driver would say; length 8 reaches the driver |
| VulkanUtils.LargestHeapIndex | source/VulkanUtils.cpp:228-250 | the scan finds a matching heap of maximal size, the earliest among equals; it keeps `~0` exactly when no matching heap is non-empty |
| VulkanUtils.GetLargestPhysicalDeviceHeap | source/VulkanUtils.cpp:228-250 | the returned heap is one of the device's heaps, has the flags and is non-empty; no heap with the flags is larger, and every matching heap before it is strictly smaller, so ties go to the lowest index |
| DeviceSelection.StablePartitionPrefix | source/Vulkanator.cpp:195-204 | `stable_partition` over a prefix keeps the multiset, puts the prefix's discrete GPUs first in their order, then its other devices in their order, and leaves the rest untouched |
| DeviceSelection.VramIsLargestHeap | source/Vulkanator.cpp:207-216 | the comparator's key is the size of the device's largest device-local heap, as GetLargestPhysicalDeviceHeap picks it |
| StableSort.SortByKey | source/Vulkanator.cpp:206-219 | the sort is a permutation ordered by decreasing key |
| StableSort.InsertKeepsTies | source/Vulkanator.cpp:206-219 | inserting into a sorted list puts the new element after every earlier element of its key and reorders no key's elements |
| StableSort.SortKeepsTies | source/Vulkanator.cpp:206-219 | for every key, the sorted list holds the elements of that key in their original order: the sort is stable |
| StableSort.SortedHeadIsMax | source/Vulkanator.cpp:206-222 | the first element of a sorted list has the greatest key, so `at(0)` after the sort is a largest device |
| DeviceSelection.StableSortPrefix | source/Vulkanator.cpp:206-219 | `stable_sort` over a prefix permutes only the prefix, orders it by decreasing device-local heap size, and keeps the order of devices with equal heap size |
| DeviceSelection.SelectPhysicalDevice | source/Vulkanator.cpp:193-222 | as written, the first enumerated device is chosen, and there is no device exactly when the list is empty |
| DeviceSelection.IntendedOrder | source/Vulkanator.cpp:195-219 | partitioning and sorting the whole list keeps every device, puts exactly the discrete GPUs first sorted by decreasing VRAM with equal-VRAM GPUs in enumeration order, and leaves the other devices after them in enumeration order |
| DeviceSelection.SelectPhysicalDeviceIntended | source/Vulkanator.cpp:193-222 | the same partition and sort with the range ending at `end()` yields a device exactly when there is one |
| DeviceSelection.IntendedSelectionPrefersLargestDiscrete | source/Vulkanator.cpp:196-222 | the intended order picks a discrete GPU whenever one exists, with the most device-local memory among them and no earlier-enumerated discrete GPU of that size; otherwise the first device |
| DeviceSelection.SelectionIgnoresDeviceType | source/Vulkanator.cpp:193-222 | an integrated GPU enumerated before a larger discrete GPU is kept as written and passed over as intended |
| ShaderInterface.RoundUp | include/Vulkanator.hpp:138-143 | the least aligned offset not below `x`: aligned, not below `x`, and less than one alignment above it |
| ShaderInterface.FieldOffsetsPlacement | include/Vulkanator.hpp:138-150 | every member is aligned, starts after the previous one ends and is padded by less than its alignment |
| ShaderInterface.UniformsFollowStd140 | include/Vulkanator.hpp:132-143 | the C++ `Uniforms` struct places Depth, Transform and ColorFactor at 0, 16 and 80 with size 96, exactly as the std140 rules place the shader's block |
| ShaderInterface.VertexLayoutConsistent | source/Vulkanator.cpp:1740-1771 | VertexBindingDescription's stride is 16, UV sits at offset 8, and both R32G32 attributes lie inside one vertex of binding 0 without overlapping |
| ShaderInterface.VertexAttributes | source/Vulkanator.cpp:1753-1771 | there are two attributes, at locations 0 and 1, both R32G32 SFLOAT and both on the binding VertexBindingDescription describes |
| ShaderInterface.QuadCoversClipSpace | include/Vulkanator.hpp:161-170 | the quad's four vertices sit on the four corners of clip space, are distinct, and each has the UV of its position |
| ShaderInterface.ParamNumbering | include/Vulkanator.hpp:172-187 | parameters are numbered 0 to 8 without gaps or repeats, and the checkout id `Input + COUNT` lies outside that range |
| ShaderInterface.White16IsNotFullRange | include/VulkanUtils.hpp:15-23 | the host's 16-bit white (0x8000) reads back in a UNORM16 texture as 32768/65535, between one half and one |
| PipelineCatalog.RenderPassDescription | source/Vulkanator.cpp:287-372 | each pass clears and stores its single colour attachment, ignores stencil, expects ColorAttachmentOptimal and leaves TransferSrcOptimal |
| PipelineCatalog.BuildRenderPasses | source/Vulkanator.cpp:287-372 | all three passes exist exactly when every creation succeeds, and pass `d` uses the format of depth class `d` |
| PipelineCatalog.DescriptorPoolServes512Sequences | source/Vulkanator.cpp:410-440 | with SetupDescriptorPool's sizes, one set of SetLayoutBindings holds one descriptor of each type, so the pool serves 512 sequences but not 513; the per-type sizes bind, not maxSets |
| PipelineCatalog.SetLayoutHoldsOneOfEach | source/Vulkanator.cpp:442-465 | SetLayoutBindings gives each binding number one entry, holds a single-descriptor binding of each type, shows the uniform buffer to both stages and the sampler to the fragment stage |
| PipelineCatalog.PipelineDescription | source/Vulkanator.cpp:514-651 | a pipeline has the two shader stages, the Vertex binding and attributes, triangle-strip topology, dynamic viewport and scissor, and names its layout and pass |
| PipelineCatalog.BuildPipelinesFrom | source/Vulkanator.cpp:652-672 | all pipelines exist exactly when every creation succeeds, and pipeline `d` is made for pass `d` |
| PipelineCatalog.GlobalSetup | source/Vulkanator.cpp:176-700 | succeeds exactly when enumeration, every device call and every catalogue call succeed, and then yields a valid catalogue on the first enumerated device with the mesh in the first suitable host memory; a failed enumeration returns internal-struct-damaged, an empty list throws out of range, a failed mesh allocation throws bad-optional-access, each exactly then; after the global handle is allocated, out of memory is never returned |
| PipelineCatalog.DeviceSetup | source/Vulkanator.cpp:224-408 | after device selection: succeeds exactly when the device, command pool, every pass, both shader modules and the catalogue calls succeed; throws bad-optional-access exactly when only the mesh allocation fails; otherwise returns internal-struct-damaged |
| PipelineCatalog.CatalogSetup | source/Vulkanator.cpp:408-700 | succeeds exactly when the pool, set layout, pipeline layout, every pipeline, the mesh buffer and its mapping are made, with the mesh in the first suitable host memory; throws bad-optional-access exactly when the mesh allocation fails; otherwise returns internal-struct-damaged |
| PipelineCatalog.MeshBufferHoldsQuad | source/Vulkanator.cpp:675-691 | the mesh buffer is 64 bytes, four vertices at the binding's stride |
| LayoutTracking.Step | source/Vulkanator.cpp:1516-1656 | for each command, the condition under which it fails, stated as an iff (barriers and copies need no open pass and the expected layout; pass commands need the matching pass state); a barrier sets its new layout, a pass its subpass and then final layout, and the binding, copies and draw change nothing else |
| LayoutTracking.UploadReadiesImages | source/Vulkanator.cpp:1516-1567 | UploadCommands succeeds exactly when no pass is open, whatever the starting layouts, and leaves the input in the sampled layout and the output in ColorAttachmentOptimal |
| LayoutTracking.DownloadReadsBack | source/Vulkanator.cpp:1629-1656 | with no pass open, DownloadCommands succeeds exactly when the output is in TransferSrcOptimal, and then changes nothing |
| LayoutTracking.FrameLayoutsMatch | source/Vulkanator.cpp:1516-1656 | for every depth class and any starting layouts, every layout expectation of the frame's commands holds, and the frame ends with the input sampled-ready and the output transfer-source-ready |
| LayoutTracking.DrawFromAttachment | source/Vulkanator.cpp:1569-1626 | DrawCommands succeed exactly when the input is in the layout the descriptor write declares, and leave the output in TransferSrcOptimal |
| LayoutTracking.RepeatedFramesMatch | source/Vulkanator.cpp:1516-1567 | any number of frames in a row replay without a layout mismatch, because each transition starts from Undefined |
| LayoutTracking.SkippingSampleBarrierFails | source/Vulkanator.cpp:1544-1567 | without the TransferDst-to-ShaderReadOnly barrier the draw fails the declared layout |
| LayoutTracking.PassLayoutsMeetCopies | source/Vulkanator.cpp:309-313 | the pass's initial layout is the one the last upload barrier sets, its final layout is the one the download copy reads, and the sample barrier leaves the declared layout |
| FrameResources.RequiredStagingSize | source/Vulkanator.cpp:1151-1153 | the staging size covers both layers and equals the larger of them |
| FrameResources.ShrinkAllowance | source/Vulkanator.cpp:1161-1167 | the allowance is the largest whole number of bytes not above 15% of the cached size |
| FrameResources.StagingDecision | source/Vulkanator.cpp:1155-1198 | reuse exactly when the buffer is large enough and its surplus is within the allowance; grow exactly when it is too small |
| FrameResources.ValidateStaging | source/Vulkanator.cpp:1155-1198 | afterwards the buffer covers the request with a surplus within the allowance; it is replaced exactly on shrink or grow, by one of exactly the required size; the images are untouched |
| FrameResources.StagingRuleExamples | source/Vulkanator.cpp:1155-1182 | at 1,000,000 cached bytes, requests of 900,000 and 850,000 reuse, 849,999 and 800,000 shrink, and 1,200,000 grows |
| FrameResources.FreshCacheAllocatesStaging | include/Vulkanator.hpp:102-105 | a fresh cache of size 0 grows on the first request for any bytes |
| FrameResources.StagingSettles | source/Vulkanator.cpp:1155-1198 | the same request twice in a row never reallocates the second time |
| FrameResources.ImageDescription | source/Vulkanator.cpp:1209-1224 | the frame's image is 2D, single-mip, single-layer, single-sample, optimally tiled and exclusive, in the frame's format and extent, starting Undefined |
| FrameResources.InputDescription | source/Vulkanator.cpp:1209-1224 | the input image can be copied into, copied from and sampled, in the frame's format and the input layer's width and height |
| FrameResources.OutputDescription | source/Vulkanator.cpp:1287-1303 | the output image can be a colour attachment and a copy source, in the frame's format and the output layer's width and height |
| FrameResources.DescriptionsMatchExactlyOnSameImage | source/Vulkanator.cpp:1209-1303 | two input (or two output) descriptions are equal exactly when format, width and height are, and an input description never equals an output one |
| FrameResources.BuiltDescriptionIsNeverDefault | source/Vulkanator.cpp:1226-1241 | a built description never equals the default cached one, so an empty slot always allocates |
| FrameResources.ValidateImage | source/Vulkanator.cpp:1226-1241 | a new image exactly when the description differs from the cached one in any field; afterwards the slot caches the new description |
| FrameResources.ValidateImageIdempotent | source/Vulkanator.cpp:1226-1241 | checking the same description again changes nothing, whatever the driver would answer |
| FrameResources.ValidateCache | source/Vulkanator.cpp:1151-1320 | after the cache check both memcpys fit in the staging buffer, the surplus is within the allowance, both slots describe this frame's images, and consistency is kept |
| FrameResources.RepeatedFrameReusesCache | source/Vulkanator.cpp:1151-1320 | a second frame with the same format and layers needs no allocation and leaves the cache as it is |
| FrameResources.FreshCacheCreatesImages | source/Vulkanator.cpp:1226-1320 | the first frame on a fresh cache creates both images |
| FrameResources.StagingSizeAsWrittenAgreesBelow2GiB | source/Vulkanator.cpp:1151-1153 | for layers under 2 GiB the 32-bit staging-size computation equals the required size |
| FrameResources.StagingSizeAsWritten | source/Vulkanator.cpp:1151-1153 | when both layers are below 2 GiB the 32-bit maximum is the required size; otherwise a product may wrap, and the result converted to `size_t` is either below 2 GiB or at least 2^63, the latter exactly when both products wrap negative |
| FrameResources.UploadBytesAsWritten | source/Vulkanator.cpp:1472-1474 | the upload length is the same 32-bit product converted to `size_t`, and the layer's size when below 2 GiB |
| FrameResources.UploadFitsAsWritten | source/Vulkanator.cpp:1151-1153 | whenever the input's 32-bit product is non-negative, the upload fits in the as-written staging size |
| FrameResources.UploadOverrunsWhenOnlyInputWraps | source/Vulkanator.cpp:1472-1474 | a 23170 x 23170 input at 32 bits per channel wraps to -352,192, so a 1000 x 1000 output sets a 16,000,000-byte buffer while the upload copies at least 2^63 bytes |
| FrameResources.DownloadBytes | source/Vulkanator.cpp:1690-1692 | the download length is the output layer's size, computed in 64-bit `size_t` |
| FrameResources.StagingSizeWrapsForLargestLayer | source/Vulkanator.cpp:1151-1153 | for a 30000 x 30000 layer at 32 bits per channel the 32-bit product wraps to 1,515,098,112 bytes, below the 14,400,000,000-byte download |
| FenceSync.SubmitAndWait | source/Vulkanator.cpp:1670-1687 | a frame completes exactly when the submit is accepted and the wait outlasts the work, and then the fence is reset; a timed-out wait leaves work pending and the fence unreset |
| FenceSync.IntendedTimeoutKeepsFenceUnsignalled | source/Vulkanator.cpp:1679-1687 | with the unbounded timeout every submit sees an unsignalled fence, every accepted frame completes, and the fence ends unsignalled |
| FenceSync.SourceTimeoutLeavesFenceSignalled | source/Vulkanator.cpp:1679-1685 | with `~0u` a 5 s frame times out and the next frame submits with a signalled fence; the unbounded timeout completes both frames |
| FenceSync.SignalledFenceStaysSignalled | source/Vulkanator.cpp:1670-1687 | once the fence is left signalled, every later submit breaks the unsignalled-fence rule |
| Render.DepthClassSelectsConsistentTables | source/Vulkanator.cpp:1201-1206 | bit depths 8, 16 and 32 give classes 0, 1 and 2; the host pixel size of each class is the texel size of its format; 48 bits or more is out of range |
| Render.DepthClass | source/Vulkanator.cpp:1040-1044 | the class is the number of whole 16-bit steps in the bit depth |
| Render.RowLength | source/Vulkanator.cpp:1244-1249 | the row pitch in texels never extends past rowbytes and covers every width whose pixels fit in a row |
| Render.CopyRegionWithinLayer | source/Vulkanator.cpp:1244-1249 | the buffer region a copy touches lies within the layer's `height * rowbytes` bytes |
| Render.SamplerFilter | source/Vulkanator.cpp:1369-1386 | the sampler filters linearly exactly at high quality; low and any other quality sample nearest |
| Render.DescriptorWritesMatchLayout | source/Vulkanator.cpp:1405-1420 | the binding 0 and binding 1 writes match the set layout's type and count, and binding 1 declares the layout the sample barrier sets |
| Render.SequenceSetup | source/Vulkanator.cpp:726-862 | succeeds exactly when the handle, command buffer, fence, descriptor set and 96-byte uniform buffer are all obtained, and then leaves an unsignalled fence, a fresh cache and binding 0 written; the first four failures return out of memory; a failed uniform-buffer allocation, and only that, throws bad-optional-access |
| Render.LayoutsAfterCache | source/Vulkanator.cpp:1222-1241 | a newly created image starts in the Undefined layout; a kept image keeps its layout, and the open pass and sampled binding are unchanged |
| Render.CheckCache | source/Vulkanator.cpp:1151-1320 | the cache check gets through exactly when the layers' allocations succeed, the depth class has a format and the input view is made, and then leaves the cache ValidateCache describes; it throws bad-optional-access exactly when an allocation fails, throws out of range exactly when the class has no format, and returns internal-struct-damaged exactly when the input view fails |
| Render.CheckCacheKeepsProgress | source/Vulkanator.cpp:1155-1320 | a failed check keeps every reallocation made before the failure: none when the staging allocation throws; otherwise the staging check's buffer and size, the checked input slot once the input image is allocated; the output slot changes only on success |
| Render.DrawFrame | source/Vulkanator.cpp:1363-1509 | from an unsignalled fence and no open pass, succeeds exactly when every view, sampler, framebuffer, map, recording and submit call succeeds; every error is internal-struct-damaged; a failed call leaves the layouts as they were; only the descriptor writes, the fence and the layouts change; a rendered frame's copies use `RowLength` of its layers' rowbytes for its depth class |
| Render.SubmitFrame | source/Vulkanator.cpp:1496-1697 | with an unsignalled fence the frame completes exactly when the submit is accepted, the fence comes back unsignalled, and the layouts are those the recorded commands leave; a refused submit leaves the layouts; every error is internal-struct-damaged; the copy row lengths are `RowLength` of each layer's rowbytes for the depth class |
| Render.RenderFrame | source/Vulkanator.cpp:1116-1697 | missing layers skip the frame; out of memory is never returned; every frame keeps the sequence invariant; a rendered frame used its class's pass, pipeline, format and copy row lengths, its memcpys fit the staging buffer, and the cache is the one ValidateCache describes |
| Render.RenderedCopiesFitStaging | source/Vulkanator.cpp:1243-1247 | the regions a rendered frame's `copyBufferToImage` and `copyImageToBuffer` touch, with rows `rowbytes / PixelSize` texels apart, end within the staging size whenever the layer's rows hold its width |
| Render.CopyFitsWhenLayerFits | source/Vulkanator.cpp:1321-1325 | with the frame's row pitch, a copy stays within any buffer that holds the whole layer |
| Render.RenderFrameOutcome | source/Vulkanator.cpp:1116-1697 | a frame with both layers keeps the cache its cache check left and renders exactly when the cache check and every draw call succeed; it throws bad-optional-access exactly on a failed allocation, out of range exactly on a depth class without a format, and returns internal-struct-damaged exactly when the input view or a draw call fails; a failed draw keeps the layouts the cache check left |
| Render.RepeatedFrameAllocatesNothing | source/Vulkanator.cpp:1151-1320 | after a rendered frame the same frame again reaches the views and leaves the cache unchanged |

## Left out

- Instance creation, extension queries, the debug messenger and `DebugMessageCallback`: they only configure validation output.
- Loading the shader files from the embedded resource filesystem: the shader bytes are inputs.
- The AE host glue is left out: `host_new_handle` for the global parameters (which returns PF_Err_OUT_OF_MEMORY on failure), handle locking, `About`, `ParamsSetup`, `GlobalSetdown`, `SequenceSetdown`, `SequenceFlatten` and `SequenceReSetup`. It does not touch Vulkan state beyond releasing it.
- SmartPreRender's transform matrix, colour factor, downsample and pixel-aspect arithmetic: floating point. Only its depth class is modelled.
- Pipeline stages and access masks of the barriers, and the render pass's subpass dependency: only image layouts are tracked. The stage mask `eComputeShader` after the upload copy, in a pipeline with no compute stage, is not examined.
- The bytes themselves: memcpy contents, the uniform values and the rendered pixels. Only the lengths moved are modelled.
- The staging memory's mapped state is not modelled. SmartRender maps it and does not unmap it on the error returns after the map, nor on a timed-out wait.
- `UniqueDescriptorSet` destruction is left out with the teardown commands. It frees the set into a pool created without the free-descriptor-set flag.
- `VulkanConfig.hpp` is a build configuration; it only selects Vulkan-Hpp without exceptions.
- ShrinkAllowance: models `size_t(S * 0.15f)` as `S * 15 / 100`, the exact decimal fraction. The source rounds `S`, `0.15f` and the product to 24-bit significands, so its allowance can differ from the model's by about `S * 2^-24` bytes: for `S` = 1,000,000,040 the source allows 150,000,016 bytes and the model 150,000,006, so a request of 850,000,030 is reused by the source and shrunk by the model.
- GetLargestPhysicalDeviceHeap: requires a non-empty matching heap. Otherwise the source indexes `memoryHeaps` with `~0`, which has no defined result.
- Render.SubmitFrame: waits with the unbounded timeout, the corrected behaviour of the fence finding below. FenceSync models the `~0u` wait as written.
- Render.CheckCache: sizes staging with RequiredStagingSize, the corrected behaviour of the staging finding below. FrameResources.StagingSizeAsWritten and UploadBytesAsWritten model the 32-bit computations as written.
- Render.RenderedCopiesFitStaging: holds for layers whose rows hold their width (`width * PixelSize <= rowbytes`), which the host provides and the source does not check. Layers are modelled with non-negative `rowbytes`.
- DeviceSelection.Vram: treats a device without a device-local heap as having 0 bytes. The source's comparator would index out of range there.

## Findings

| source | as written | input that shows it | evidently intended | confidence | as-written member | corrected member |
|---|---|---|---|---|---|---|
| source/Vulkanator.cpp:193-222 | `MinCriteria` is `begin()`, so the partition and the sort act on an empty range and `PhysicalDevices.at(0)` is the first enumerated device | an integrated GPU with 1 byte of VRAM enumerated before a discrete GPU with 8 bytes | partition and sort the whole list: a discrete GPU with the most device-local memory | high, not executed | DeviceSelection.SelectionIgnoresDeviceType | DeviceSelection.IntendedSelectionPrefersLargestDiscrete |
| source/Vulkanator.cpp:1679-1687 | the fence wait uses `~0u`, an `unsigned int`: 4,294,967,295 ns, about 4.29 s. On timeout SmartRender returns without resetting the fence | GPU work of 5 s, then any frame | wait without a time limit (UINT64_MAX), so the fence is always reset before the next submit | high, not executed | FenceSync.SourceTimeoutLeavesFenceSignalled | FenceSync.IntendedTimeoutKeepsFenceUnsignalled |
| source/Vulkanator.cpp:1151-1153 | the staging size is the maximum of two `A_long` (32-bit) products. A product of 2^31 or more overflows `int`, which is undefined behaviour; the model takes the common two's-complement wrap. The download at 1690-1692 multiplies in `size_t`, so when a product wraps to a smaller positive value the download runs past the buffer. The upload memcpy at 1472-1474 uses the same 32-bit product as the staging size: when only the input's product wraps negative, the maximum picks the output's size, the allocation succeeds, and the upload copies a `size_t` of at least 2^63 bytes into it (UploadOverrunsWhenOnlyInputWraps). When both products wrap negative the size is at least 2^63, which no device can allocate, so `.value()` throws | a 30000 x 30000 layer at 32 bits per channel, rowbytes 480000 | compute the products in `size_t`, so the staging buffer holds the whole layer | medium (depends on `A_long` being 32-bit, as in the AE SDK), not executed | FrameResources.StagingSizeWrapsForLargestLayer | FrameResources.ValidateCache |

=== FILE: device_selection.dfy ===
/**
 * Physical-device selection in GlobalSetup.  The code partitions the
 * enumerated devices (discrete GPUs first) and sorts a range by the size of
 * the largest device-local heap, but both ranges end at `MinCriteria`,
 * which is `begin()`: both are empty and the first enumerated device is
 * chosen.  `SelectPhysicalDevice` models that; `SelectPhysicalDeviceIntended`
 * is the same procedure with the range ending at `end()`.
 */
module DeviceSelection {
  import opened Wrappers
  import opened VkTypes
  import opened VulkanUtils
  import opened StableSort

  datatype DeviceType = OtherDevice | IntegratedGpu | DiscreteGpu | VirtualGpu | Cpu

  datatype PhysicalDevice = PhysicalDevice(id: nat, deviceType: DeviceType, memory: MemoryProperties)

  predicate IsDiscrete(d: PhysicalDevice) {
    d.deviceType == DiscreteGpu
  }

  /** The comparator's `GetLargestPhysicalDeviceHeap(d, eDeviceLocal)` is defined only for such devices. */
  predicate HasDeviceLocalHeap(d: PhysicalDevice) {
    HasCandidateHeap(d.memory.memoryHeaps, {HeapDeviceLocal})
  }

  /** Size of the largest device-local heap: the sort key (0 where the comparator would be undefined). */
  function Vram(d: PhysicalDevice): nat {
    if HasDeviceLocalHeap(d) then GetLargestPhysicalDeviceHeap(d.memory, {HeapDeviceLocal}).size else 0
  }

  /** The sort key is the size of the largest device-local heap, the first such heap on a tie. */
  lemma VramIsLargestHeap(d: PhysicalDevice)
    ensures HasDeviceLocalHeap(d) ==>
              exists k :: IsLargestHeap(d.memory.memoryHeaps, {HeapDeviceLocal}, k) && Vram(d) == d.memory.memoryHeaps[k].size
    ensures !HasDeviceLocalHeap(d) ==> Vram(d) == 0
  {
    if HasDeviceLocalHeap(d) {
      var h := GetLargestPhysicalDeviceHeap(d.memory, {HeapDeviceLocal});
      var k :| IsLargestHeap(d.memory.memoryHeaps, {HeapDeviceLocal}, k) && h == d.memory.memoryHeaps[k];
      assert Vram(d) == d.memory.memoryHeaps[k].size;
    }
  }

  function Discretes(s: seq<PhysicalDevice>): (r: seq<PhysicalDevice>)
    ensures forall d :: d in r ==> IsDiscrete(d)
  {
    if |s| == 0 then [] else (if IsDiscrete(s[0]) then [s[0]] else []) + Discretes(s[1..])
  }

  function Others(s: seq<PhysicalDevice>): (r: seq<PhysicalDevice>)
    ensures forall d :: d in r ==> !IsDiscrete(d)
  {
    if |s| == 0 then [] else (if IsDiscrete(s[0]) then [] else [s[0]]) + Others(s[1..])
  }

  lemma {:induction false} PartitionKeepsDevices(s: seq<PhysicalDevice>)
    ensures multiset(Discretes(s)) + multiset(Others(s)) == multiset(s)
  {
    if |s| > 0 {
      PartitionKeepsDevices(s[1..]);
      assert s == [s[0]] + s[1..];
    }
  }

  lemma {:induction false} NoDiscretes(s: seq<PhysicalDevice>)
    requires forall d :: d in s ==> !IsDiscrete(d)
    ensures Discretes(s) == [] && Others(s) == s
  {
    if |s| > 0 {
      NoDiscretes(s[1..]);
      assert s == [s[0]] + s[1..];
    }
  }

  lemma {:induction false} PartitionLength(s: seq<PhysicalDevice>)
    ensures |Discretes(s)| + |Others(s)| == |s|
  {
    if |s| > 0 {
      PartitionLength(s[1..]);
    }
  }

  /**
   * `std::stable_partition(begin, begin + last, IsDGPU)`: the range is
   * rearranged discrete-first, the rest is untouched; the second component
   * is the partition point.
   */
  function StablePartitionPrefix(s: seq<PhysicalDevice>, last: nat): (r: (seq<PhysicalDevice>, nat))
    requires last <= |s|
    ensures |r.0| == |s|
    ensures r.1 <= last
    ensures r.0[last..] == s[last..]
    ensures multiset(r.0) == multiset(s)
    ensures r.0[..r.1] == Discretes(s[..last])
    ensures r.0[r.1..last] == Others(s[..last])
    ensures forall i :: r.1 <= i < last ==> !IsDiscrete(r.0[i])
  {
    var p := s[..last];
    PartitionLength(p);
    PartitionedPrefixKeepsDevices(s, last);
    PartitionedPrefixOrder(s, last);
    var r := Discretes(p) + Others(p) + s[last..];
    assert forall i :: |Discretes(p)| <= i < last ==> r[i] in r[|Discretes(p)|..last];
    (r, |Discretes(p)|)
  }

  lemma PartitionedPrefixKeepsDevices(s: seq<PhysicalDevice>, last: nat)
    requires last <= |s|
    ensures multiset(Discretes(s[..last]) + Others(s[..last]) + s[last..]) == multiset(s)
  {
    var p := s[..last];
    PartitionKeepsDevices(p);
    assert s == p + s[last..];
  }

  lemma PartitionedPrefixOrder(s: seq<PhysicalDevice>, last: nat)
    requires last <= |s|
    ensures var p := s[..last];
            var r := Discretes(p) + Others(p) + s[last..];
            && |Discretes(p)| + |Others(p)| == last
            && r[..|Discretes(p)|] == Discretes(p)
            && r[|Discretes(p)|..last] == Others(p)
            && r[last..] == s[last..]
  {
    var p := s[..last];
    var ds, os := Discretes(p), Others(p);
    PartitionLength(p);
    var r := ds + os + s[last..];
    assert r[..|ds|] == ds;
    assert r[|ds|..last] == os;
    assert r[last..] == s[last..];
  }

  /** `std::stable_sort(begin, begin + last, ComparePhysicalDeviceVRAM)`. */
  function StableSortPrefix(s: seq<PhysicalDevice>, last: nat): (r: seq<PhysicalDevice>)
    requires last <= |s|
    requires forall i :: 0 <= i < last ==> HasDeviceLocalHeap(s[i])
    ensures |r| == |s|
    ensures r[last..] == s[last..]
    ensures multiset(r[..last]) == multiset(s[..last])
    ensures SortedByKey(r[..last], Vram)
    ensures forall v :: WithKey(r[..last], Vram, v) == WithKey(s[..last], Vram, v)
  {
    var sorted := SortByKey(s[..last], Vram);
    assert forall v :: WithKey(sorted, Vram, v) == WithKey(s[..last], Vram, v) by {
      forall v: nat ensures WithKey(sorted, Vram, v) == WithKey(s[..last], Vram, v) {
        SortKeepsTies(s[..last], Vram, v);
      }
    }
    assert |sorted| == last by {
      assert |multiset(sorted)| == |multiset(s[..last])|;
    }
    var r := sorted + s[last..];
    assert r[..last] == sorted;
    assert r[last..] == s[last..];
    r
  }

  /** Device selection as written: `MinCriteria` is `begin()`, and the result is `PhysicalDevices.at(0)`. */
  function SelectPhysicalDevice(devices: seq<PhysicalDevice>): (r: Option<PhysicalDevice>)
    ensures r.Some? <==> |devices| > 0
    ensures r.Some? ==> r.value == devices[0]
  {
    var minCriteria := 0;
    var (partitioned, point) := StablePartitionPrefix(devices, minCriteria);
    var sorted := StableSortPrefix(partitioned, point);
    if |sorted| == 0 then None else Some(sorted[0])
  }

  lemma DiscreteIsKept(s: seq<PhysicalDevice>, d: PhysicalDevice)
    requires d in s && IsDiscrete(d)
    ensures d in Discretes(s)
  {
    PartitionKeepsDevices(s);
    assert d in multiset(s);
    assert d !in multiset(Others(s));
  }

  /**
   * The order the code evidently aims at: the same partition and sort, with
   * `MinCriteria` at `end()`.  The discrete GPUs come first, sorted by
   * VRAM; with none, the enumeration order is kept.
   */
  function IntendedOrder(devices: seq<PhysicalDevice>): (r: seq<PhysicalDevice>)
    requires forall d :: d in devices ==> HasDeviceLocalHeap(d)
    ensures |r| == |devices| && multiset(r) == multiset(devices)
    ensures |Discretes(devices)| <= |r|
    ensures multiset(r[..|Discretes(devices)|]) == multiset(Discretes(devices))
    ensures SortedByKey(r[..|Discretes(devices)|], Vram)
    ensures forall v :: WithKey(r[..|Discretes(devices)|], Vram, v) == WithKey(Discretes(devices), Vram, v)
    ensures r[|Discretes(devices)|..] == Others(devices)
    ensures (forall d :: d in devices ==> !IsDiscrete(d)) ==> r == devices
  {
    var (partitioned, point) := StablePartitionPrefix(devices, |devices|);
    PartitionedWholeRange(devices);
    EveryDeviceHasHeap(devices, partitioned);
    var sorted := StableSortPrefix(partitioned, point);
    SortPrefixKeepsDevices(partitioned, point);
    NoDiscretesKeepsOrder(devices);
    sorted
  }

  /** Partitioning the whole range puts exactly the discrete GPUs first, then the others, each in order. */
  lemma PartitionedWholeRange(devices: seq<PhysicalDevice>)
    ensures var (partitioned, point) := StablePartitionPrefix(devices, |devices|);
            && partitioned[..point] == Discretes(devices)
            && partitioned[point..] == Others(devices)
  {
    WholePrefix(devices);
    var (partitioned, point) := StablePartitionPrefix(devices, |devices|);
    WholeSuffix(partitioned, point);
  }

  lemma WholePrefix(s: seq<PhysicalDevice>)
    ensures s[..|s|] == s
  {
  }

  lemma WholeSuffix(s: seq<PhysicalDevice>, i: nat)
    requires i <= |s|
    ensures s[i..] == s[i..|s|]
  {
  }

  lemma EveryDeviceHasHeap(devices: seq<PhysicalDevice>, partitioned: seq<PhysicalDevice>)
    requires forall d :: d in devices ==> HasDeviceLocalHeap(d)
    requires multiset(partitioned) == multiset(devices)
    ensures forall i :: 0 <= i < |partitioned| ==> HasDeviceLocalHeap(partitioned[i])
  {
    forall i | 0 <= i < |partitioned| ensures HasDeviceLocalHeap(partitioned[i]) {
      assert partitioned[i] in multiset(partitioned);
    }
  }

  lemma SortPrefixKeepsDevices(s: seq<PhysicalDevice>, last: nat)
    requires last <= |s|
    requires forall i :: 0 <= i < last ==> HasDeviceLocalHeap(s[i])
    ensures multiset(StableSortPrefix(s, last)) == multiset(s)
  {
    var sorted := StableSortPrefix(s, last);
    assert sorted == sorted[..last] + sorted[last..];
    assert s == s[..last] + s[last..];
  }

  /** With no discrete GPU the partition leaves the devices as they are. */
  lemma NoDiscretesKeepsOrder(devices: seq<PhysicalDevice>)
    ensures (forall d :: d in devices ==> !IsDiscrete(d)) ==>
              StablePartitionPrefix(devices, |devices|) == (devices, 0)
  {
    if forall d :: d in devices ==> !IsDiscrete(d) {
      NoDiscretes(devices);
      assert devices[..|devices|] == devices;
      assert devices[|devices|..] == [];
      assert [] + devices + [] == devices;
    }
  }

  /** Device selection with the intended order. */
  function SelectPhysicalDeviceIntended(devices: seq<PhysicalDevice>): (r: Option<PhysicalDevice>)
    requires forall d :: d in devices ==> HasDeviceLocalHeap(d)
    ensures r.Some? <==> |devices| > 0
  {
    var sorted := IntendedOrder(devices);
    if |sorted| == 0 then None else Some(sorted[0])
  }

  /**
   * The intended order picks a discrete GPU whenever there is one, and one
   * with the most device-local memory among them; with no discrete GPU it
   * keeps the first enumerated device.
   */
  lemma IntendedSelectionPrefersLargestDiscrete(devices: seq<PhysicalDevice>)
    requires forall d :: d in devices ==> HasDeviceLocalHeap(d)
    requires |devices| > 0
    ensures var r := SelectPhysicalDeviceIntended(devices);
            && r.Some?
            && r.value in devices
            && ((exists d :: d in devices && IsDiscrete(d)) ==>
                  && IsDiscrete(r.value)
                  && (forall d :: d in devices && IsDiscrete(d) ==> Vram(d) <= Vram(r.value))
                  && exists i :: 0 <= i < |devices| && devices[i] == r.value
                                 && forall j :: 0 <= j < i && IsDiscrete(devices[j]) ==> Vram(devices[j]) < Vram(r.value))
            && ((forall d :: d in devices ==> !IsDiscrete(d)) ==> r.value == devices[0])
  {
    var sorted := IntendedOrder(devices);
    assert sorted[0] in multiset(sorted);
    if exists d :: d in devices && IsDiscrete(d) {
      IntendedHeadIsLargestDiscrete(devices, sorted);
    }
  }

  /** With a discrete GPU present, the head of the intended order is the discrete GPU with the most VRAM. */
  lemma IntendedHeadIsLargestDiscrete(devices: seq<PhysicalDevice>, sorted: seq<PhysicalDevice>)
    requires forall d :: d in devices ==> HasDeviceLocalHeap(d)
    requires sorted == IntendedOrder(devices)
    requires exists d :: d in devices && IsDiscrete(d)
    ensures |sorted| > 0 && IsDiscrete(sorted[0])
    ensures forall d :: d in devices && IsDiscrete(d) ==> Vram(d) <= Vram(sorted[0])
    ensures exists i :: 0 <= i < |devices| && devices[i] == sorted[0]
                        && forall j :: 0 <= j < i && IsDiscrete(devices[j]) ==> Vram(devices[j]) < Vram(sorted[0])
  {
    var point := |Discretes(devices)|;
    var d0 :| d0 in devices && IsDiscrete(d0);
    DiscreteIsKept(devices, d0);
    var head := sorted[..point];
    assert head[0] == sorted[0];
    HeadIsLargestDiscrete(devices, head, Vram);
    var m := Vram(head[0]);
    assert WithKey(head, Vram, m) == WithKey(Discretes(devices), Vram, m);
    HeadIsFirstOfItsKey(devices, head, Vram);
  }

  /** The head of a key-sorted arrangement of the discrete devices is a discrete device of greatest key. */
  lemma HeadIsLargestDiscrete(devices: seq<PhysicalDevice>, head: seq<PhysicalDevice>, key: PhysicalDevice -> nat)
    requires |head| > 0
    requires multiset(head) == multiset(Discretes(devices))
    requires SortedByKey(head, key)
    ensures IsDiscrete(head[0]) && head[0] in devices
    ensures forall d :: d in devices && IsDiscrete(d) ==> key(d) <= key(head[0])
  {
    assert head[0] in multiset(head);
    PartitionKeepsDevices(devices);
    assert head[0] in multiset(devices);
    forall d | d in devices && IsDiscrete(d) ensures key(d) <= key(head[0]) {
      DiscreteIsKept(devices, d);
      assert d in multiset(head);
      SortedHeadIsMax(head, d, key);
    }
  }

  /**
   * If the stable sort kept the order among the discrete devices of the
   * head's key, the head is the first discrete device of its key.
   */
  lemma HeadIsFirstOfItsKey(devices: seq<PhysicalDevice>, head: seq<PhysicalDevice>, key: PhysicalDevice -> nat)
    requires |head| > 0
    requires WithKey(head, key, key(head[0])) == WithKey(Discretes(devices), key, key(head[0]))
    requires forall d :: d in devices && IsDiscrete(d) ==> key(d) <= key(head[0])
    ensures exists i :: 0 <= i < |devices| && devices[i] == head[0]
                        && forall j :: 0 <= j < i && IsDiscrete(devices[j]) ==> key(devices[j]) < key(head[0])
  {
    var m := key(head[0]);
    assert WithKey(head, key, m) == [head[0]] + WithKey(head[1..], key, m);
    FirstDiscreteWithKey(devices, key, m);
    var i :| 0 <= i < |devices| && devices[i] == WithKey(Discretes(devices), key, m)[0]
             && forall j :: 0 <= j < i && IsDiscrete(devices[j]) ==> key(devices[j]) != m;
    forall j | 0 <= j < i && IsDiscrete(devices[j]) ensures key(devices[j]) < m {
      assert devices[j] in devices;
    }
  }

  /**
   * The first discrete device of `s` with key `m` sits at an index before
   * which no discrete device has key `m`.
   */
  lemma {:induction false} FirstDiscreteWithKey(s: seq<PhysicalDevice>, key: PhysicalDevice -> nat, m: nat)
    requires |WithKey(Discretes(s), key, m)| > 0
    ensures exists i :: 0 <= i < |s| && s[i] == WithKey(Discretes(s), key, m)[0]
                        && forall j :: 0 <= j < i && IsDiscrete(s[j]) ==> key(s[j]) != m
    decreases |s|
  {
    assert |s| > 0;
    var first := if IsDiscrete(s[0]) then [s[0]] else [];
    assert Discretes(s) == first + Discretes(s[1..]);
    WithKeyAppend(first, Discretes(s[1..]), key, m);
    if IsDiscrete(s[0]) && key(s[0]) == m {
      assert WithKey(first, key, m) == [s[0]];
      assert WithKey(Discretes(s), key, m)[0] == s[0];
    } else {
      assert WithKey(first, key, m) == [];
      FirstDiscreteWithKey(s[1..], key, m);
      var i :| 0 <= i < |s[1..]| && s[1..][i] == WithKey(Discretes(s[1..]), key, m)[0]
               && forall j :: 0 <= j < i && IsDiscrete(s[1..][j]) ==> key(s[1..][j]) != m;
      assert s[i + 1] == WithKey(Discretes(s), key, m)[0];
      forall j | 0 <= j < i + 1 && IsDiscrete(s[j]) ensures key(s[j]) != m {
        if j > 0 {
          assert s[j] == s[1..][j - 1];
        }
      }
    }
  }

  /** A device whose only heap is one device-local heap of `size` bytes. */
  function SingleHeapDevice(id: nat, deviceType: DeviceType, size: nat): PhysicalDevice {
    PhysicalDevice(id, deviceType, MemoryProperties([], [MemoryHeap(size, {HeapDeviceLocal})]))
  }

  lemma SingleHeapVram(id: nat, deviceType: DeviceType, size: nat)
    requires size > 0
    ensures HasDeviceLocalHeap(SingleHeapDevice(id, deviceType, size))
    ensures Vram(SingleHeapDevice(id, deviceType, size)) == size
  {
    var d := SingleHeapDevice(id, deviceType, size);
    assert HeapMatches(d.memory.memoryHeaps, {HeapDeviceLocal}, 0);
  }

  /**
   * An integrated GPU enumerated before a discrete GPU with more memory:
   * the code as written keeps the integrated GPU, the intended order picks
   * the discrete one.
   */
  lemma SelectionIgnoresDeviceType()
    ensures HasDeviceLocalHeap(SingleHeapDevice(0, IntegratedGpu, 1))
    ensures HasDeviceLocalHeap(SingleHeapDevice(1, DiscreteGpu, 8))
    ensures SelectPhysicalDevice([SingleHeapDevice(0, IntegratedGpu, 1), SingleHeapDevice(1, DiscreteGpu, 8)])
            == Some(SingleHeapDevice(0, IntegratedGpu, 1))
    ensures SelectPhysicalDeviceIntended([SingleHeapDevice(0, IntegratedGpu, 1), SingleHeapDevice(1, DiscreteGpu, 8)])
            == Some(SingleHeapDevice(1, DiscreteGpu, 8))
  {
    var integrated := SingleHeapDevice(0, IntegratedGpu, 1);
    var discrete := SingleHeapDevice(1, DiscreteGpu, 8);
    SingleHeapVram(0, IntegratedGpu, 1);
    SingleHeapVram(1, DiscreteGpu, 8);
    IntendedPicksTheDiscrete(integrated, discrete);
  }

  /** Of one non-discrete and one discrete device, the intended order picks the discrete one. */
  lemma IntendedPicksTheDiscrete(a: PhysicalDevice, b: PhysicalDevice)
    requires HasDeviceLocalHeap(a) && HasDeviceLocalHeap(b)
    requires !IsDiscrete(a) && IsDiscrete(b)
    ensures SelectPhysicalDeviceIntended([a, b]) == Some(b)
  {
    var devices := [a, b];
    assert b in devices;
    IntendedSelectionPrefersLargestDiscrete(devices);
    var r := SelectPhysicalDeviceIntended(devices);
    assert r.value in devices;
  }
}

=== FILE: fence_sync.dfy ===
/**
 * The per-sequence fence SmartRender submits with, waits on and resets.
 * vkQueueSubmit requires an unsignalled fence; the wait's timeout decides
 * whether a slow frame leaves the fence in a state the next submit rejects.
 */
module FenceSync {
  import opened Wrappers
  import opened VkTypes

  /** Unsignalled: ready for a submit.  Pending: work submitted, not finished.  Signalled: work finished. */
  datatype FenceState = Unsignalled | Pending | Signalled

  /** The 64-bit nanosecond timeout `waitForFences` takes. */
  const MaxTimeout: nat := 0xFFFF_FFFF_FFFF_FFFF

  /** `~0u`: the complement of an `unsigned int` zero, 2^32 - 1 ns (about 4.29 s) once widened. */
  const SourceFenceTimeout: nat := 0xFFFF_FFFF

  /** UINT64_MAX: per the Vulkan specification a wait with this timeout never times out. */
  const IntendedFenceTimeout: nat := MaxTimeout

  /** Whether a wait of `timeout` ns sees work that takes `gpuNs` ns complete. */
  predicate WaitCompletes(gpuNs: nat, timeout: nat) {
    timeout == MaxTimeout || gpuNs <= timeout
  }

  /** One frame's answers: whether the submit is accepted and how long the GPU work takes. */
  datatype GpuFrame = GpuFrame(submitOk: bool, gpuNs: nat)

  datatype FrameStatus = FrameDone | FrameFailed | SubmitWithSignalledFence

  /** What one frame's submit / wait / reset does to the fence, and how the frame ends. */
  datatype SyncStep = SyncStep(fence: FenceState, status: FrameStatus)

  /**
   * Submit, wait, reset: submitting with a fence that is not unsignalled
   * breaks vkQueueSubmit's rule; a refused submit leaves the fence alone;
   * a completed wait is followed by a reset; a timed-out wait returns
   * PF_Err_INTERNAL_STRUCT_DAMAGED with the work still in flight and the
   * fence never reset.
   */
  function SubmitAndWait(fence: FenceState, frame: GpuFrame, timeout: nat): (r: SyncStep)
    ensures fence != Unsignalled ==> r.status == SubmitWithSignalledFence
    ensures fence == Unsignalled ==>
              (r.status == FrameDone <==> frame.submitOk && WaitCompletes(frame.gpuNs, timeout))
    ensures r.status == FrameDone ==> r.fence == Unsignalled
    ensures fence == Unsignalled && r.fence != Unsignalled ==>
              r.fence == Pending && frame.submitOk && !WaitCompletes(frame.gpuNs, timeout)
  {
    if fence != Unsignalled then SyncStep(fence, SubmitWithSignalledFence)
    else if !frame.submitOk then SyncStep(Unsignalled, FrameFailed)
    else if WaitCompletes(frame.gpuNs, timeout) then SyncStep(Unsignalled, FrameDone)
    else SyncStep(Pending, FrameFailed)
  }

  /** Between frames the in-flight work of a timed-out frame finishes. */
  function BetweenFrames(fence: FenceState): FenceState {
    if fence == Pending then Signalled else fence
  }

  /** The status of every frame of a run, starting from `fence`. */
  function SyncRun(fence: FenceState, frames: seq<GpuFrame>, timeout: nat): (r: seq<FrameStatus>)
    ensures |r| == |frames|
    decreases |frames|
  {
    if |frames| == 0 then []
    else
      var step := SubmitAndWait(fence, frames[0], timeout);
      [step.status] + SyncRun(BetweenFrames(step.fence), frames[1..], timeout)
  }

  /** The fence a run leaves behind. */
  function FinalFence(fence: FenceState, frames: seq<GpuFrame>, timeout: nat): FenceState
    decreases |frames|
  {
    if |frames| == 0 then fence
    else FinalFence(BetweenFrames(SubmitAndWait(fence, frames[0], timeout).fence), frames[1..], timeout)
  }

  /**
   * With the unbounded timeout, starting from the unsignalled fence
   * createFence returns, every submit sees an unsignalled fence, every frame
   * whose submit is accepted completes, and the fence ends unsignalled.
   */
  lemma {:induction false} IntendedTimeoutKeepsFenceUnsignalled(frames: seq<GpuFrame>)
    ensures forall k :: 0 <= k < |frames| ==> SyncRun(Unsignalled, frames, IntendedFenceTimeout)[k] != SubmitWithSignalledFence
    ensures forall k :: 0 <= k < |frames| ==>
              (SyncRun(Unsignalled, frames, IntendedFenceTimeout)[k] == FrameDone <==> frames[k].submitOk)
    ensures FinalFence(Unsignalled, frames, IntendedFenceTimeout) == Unsignalled
    decreases |frames|
  {
    if |frames| > 0 {
      IntendedTimeoutKeepsFenceUnsignalled(frames[1..]);
      var run := SyncRun(Unsignalled, frames, IntendedFenceTimeout);
      var rest := SyncRun(Unsignalled, frames[1..], IntendedFenceTimeout);
      assert run == [SubmitAndWait(Unsignalled, frames[0], IntendedFenceTimeout).status] + rest;
      forall k | 0 < k < |frames|
        ensures run[k] == rest[k - 1] && frames[k] == frames[1..][k - 1]
      {
      }
    }
  }

  /**
   * As written, a frame whose GPU work takes 5 s times out after about 4.29 s;
   * the fence is never reset, so the next frame submits with a signalled
   * fence even though its own work would take 1 ns.  The unbounded timeout
   * completes both frames.
   */
  lemma SourceTimeoutLeavesFenceSignalled()
    ensures var frames := [GpuFrame(true, 5_000_000_000), GpuFrame(true, 1)];
            && SyncRun(Unsignalled, frames, SourceFenceTimeout) == [FrameFailed, SubmitWithSignalledFence]
            && SyncRun(Unsignalled, frames, IntendedFenceTimeout) == [FrameDone, FrameDone]
  {
    var frames := [GpuFrame(true, 5_000_000_000), GpuFrame(true, 1)];
    assert frames[1..] == [GpuFrame(true, 1)];
    assert frames[1..][1..] == [];
    assert SubmitAndWait(Unsignalled, frames[0], SourceFenceTimeout) == SyncStep(Pending, FrameFailed);
    assert SubmitAndWait(Signalled, frames[1], SourceFenceTimeout).status == SubmitWithSignalledFence;
  }

  /** Once a fence is left signalled it stays that way: every later submit is refused by the rule. */
  lemma {:induction false} SignalledFenceStaysSignalled(frames: seq<GpuFrame>, timeout: nat)
    ensures forall k :: 0 <= k < |frames| ==> SyncRun(Signalled, frames, timeout)[k] == SubmitWithSignalledFence
    decreases |frames|
  {
    if |frames| > 0 {
      SignalledFenceStaysSignalled(frames[1..], timeout);
      var run := SyncRun(Signalled, frames, timeout);
      var rest := SyncRun(Signalled, frames[1..], timeout);
      assert run == [SubmitWithSignalledFence] + rest;
      forall k | 0 < k < |frames|
        ensures run[k] == rest[k - 1]
      {
      }
    }
  }
}

=== FILE: frame_resources.dfy ===
/**
 * The per-sequence cache SmartRender keeps between frames: a host-visible
 * staging buffer sized for the larger of the two layers, kept while it is at
 * most 15% too large, and the input and output images, kept while the image
 * description built for the frame equals the cached one.
 */
module FrameResources {
  import opened Wrappers
  import opened VkTypes
  import opened VulkanUtils
  import opened PipelineCatalog

  /** A host layer's geometry: width and height in pixels and bytes per row. */
  datatype Layer = Layer(width: nat, height: nat, rowbytes: nat)

  /** Bytes a layer occupies in host memory, which is what each memcpy moves. */
  function LayerBytes(l: Layer): nat {
    l.height * l.rowbytes
  }

  // ---------------------------------------------------------------------------
  // Staging buffer

  /** The staging buffer must hold whichever of the two layers is larger. */
  function RequiredStagingSize(input: Layer, output: Layer): (r: nat)
    ensures r >= LayerBytes(input) && r >= LayerBytes(output)
    ensures r == LayerBytes(input) || r == LayerBytes(output)
  {
    if LayerBytes(input) >= LayerBytes(output) then LayerBytes(input) else LayerBytes(output)
  }

  /**
   * The tolerated surplus `size_t(S * ShrinkThreshold)` with ShrinkThreshold
   * 0.15: the largest whole number of bytes not above 15% of `cached`.
   */
  function ShrinkAllowance(cached: nat): (r: nat)
    ensures r <= cached
    ensures r * 100 <= cached * 15 < (r + 1) * 100
  {
    cached * 15 / 100
  }

  datatype StagingAction = ReuseStaging | ShrinkStaging | GrowStaging

  /**
   * Keep the buffer when it is large enough and its surplus is within the
   * allowance; otherwise reallocate it at exactly the required size.
   */
  function StagingDecision(cached: nat, required: nat): (a: StagingAction)
    ensures a == ReuseStaging <==> required <= cached && cached - required <= ShrinkAllowance(cached)
    ensures a == GrowStaging <==> cached < required
  {
    if required <= cached then
      if cached - required > ShrinkAllowance(cached) then ShrinkStaging else ReuseStaging
    else GrowStaging
  }

  /** Where SmartRender reallocates staging: usable for both transfer directions, host-visible. */
  const StagingUsage: set<BufferUsage> := {BufferTransferDst, BufferTransferSrc}

  function StagingAllocation(props: MemoryProperties, o: AllocOracle, required: nat): Option<BufferAllocation> {
    AllocateBuffer(props, o, required, StagingUsage, HostMemory)
  }

  /** A cached image and the description it was created from. */
  datatype ImageSlot = ImageSlot(info: ImageCreateInfo, image: Option<ImageAllocation>)

  /** `SequenceParams::Cache`, with both image descriptions the render code keeps. */
  datatype SequenceCache = SequenceCache(
    stagingSize: nat,
    staging: Option<BufferAllocation>,
    input: ImageSlot,
    output: ImageSlot)

  /** A default-constructed slot: no image, the default VkImageCreateInfo. */
  const FreshSlot: ImageSlot := ImageSlot(DefaultImageCreateInfo, None)

  /** A freshly constructed cache: StagingBufferSize 0, no buffer, no images. */
  const FreshCache: SequenceCache := SequenceCache(0, None, FreshSlot, FreshSlot)

  /** The staging size recorded is the size the buffer was created with; no buffer means size 0. */
  predicate StagingConsistent(c: SequenceCache) {
    && (c.staging.Some? ==> c.staging.value.info.size == c.stagingSize)
    && (c.staging.None? ==> c.stagingSize == 0)
  }

  /** A slot's image was created from the slot's description; an empty slot holds the default description. */
  predicate SlotConsistent(slot: ImageSlot) {
    && (slot.image.Some? ==> slot.image.value.info == slot.info)
    && (slot.image.None? ==> slot.info == DefaultImageCreateInfo)
  }

  predicate CacheConsistent(c: SequenceCache) {
    StagingConsistent(c) && SlotConsistent(c.input) && SlotConsistent(c.output)
  }

  /** `.value()` on the staging allocation is reached only when the buffer is reallocated. */
  predicate StagingAllocates(props: MemoryProperties, c: SequenceCache, required: nat, o: AllocOracle) {
    StagingDecision(c.stagingSize, required) != ReuseStaging ==> StagingAllocation(props, o, required).Some?
  }

  /**
   * The staging half of the cache check.  Afterwards the buffer holds at
   * least `required` bytes and is at most the allowance larger; it is
   * replaced exactly when the decision says so, and then by a buffer of
   * exactly `required` bytes; the images are untouched.
   */
  function ValidateStaging(props: MemoryProperties, c: SequenceCache, required: nat, o: AllocOracle): (r: SequenceCache)
    requires StagingAllocates(props, c, required, o)
    ensures r.stagingSize >= required
    ensures r.stagingSize - required <= ShrinkAllowance(r.stagingSize)
    ensures r.input == c.input && r.output == c.output
    ensures StagingDecision(c.stagingSize, required) == ReuseStaging ==> r == c
    ensures StagingDecision(c.stagingSize, required) != ReuseStaging ==>
              r.stagingSize == required && r.staging == StagingAllocation(props, o, required)
    ensures StagingConsistent(c) ==> StagingConsistent(r)
  {
    match StagingDecision(c.stagingSize, required)
    case ReuseStaging => c
    case _ =>
      var buffer := StagingAllocation(props, o, required);
      c.(stagingSize := required, staging := buffer)
  }

  /** The reuse/shrink/grow rule at a cached size of 1,000,000 bytes (allowance 150,000). */
  lemma StagingRuleExamples()
    ensures ShrinkAllowance(1_000_000) == 150_000
    ensures StagingDecision(1_000_000, 900_000) == ReuseStaging
    ensures StagingDecision(1_000_000, 850_000) == ReuseStaging
    ensures StagingDecision(1_000_000, 849_999) == ShrinkStaging
    ensures StagingDecision(1_000_000, 800_000) == ShrinkStaging
    ensures StagingDecision(1_000_000, 1_200_000) == GrowStaging
  {
  }

  /** A fresh cache allocates on the first frame that needs any bytes. */
  lemma FreshCacheAllocatesStaging(required: nat)
    requires required > 0
    ensures StagingDecision(FreshCache.stagingSize, required) == GrowStaging
  {
  }

  /** The same requirement twice in a row never reallocates the second time. */
  lemma StagingSettles(props: MemoryProperties, c: SequenceCache, required: nat, o1: AllocOracle, o2: AllocOracle)
    requires StagingAllocates(props, c, required, o1)
    ensures var c1 := ValidateStaging(props, c, required, o1);
            && StagingDecision(c1.stagingSize, required) == ReuseStaging
            && StagingAllocates(props, c1, required, o2)
            && ValidateStaging(props, c1, required, o2) == c1
  {
  }

  // ---------------------------------------------------------------------------
  // Input and output images

  const InputUsage: set<ImageUsage> := {ImageTransferSrc, ImageTransferDst, Sampled}

  const OutputUsage: set<ImageUsage> := {ImageTransferSrc, ColorAttachment}

  const ImageMemory: set<MemoryProperty> := {DeviceLocal}

  /** The 2D, single-mip, single-layer, optimally tiled description SmartRender builds for a layer. */
  function ImageDescription(format: Format, l: Layer, usage: set<ImageUsage>): (r: ImageCreateInfo)
    ensures r.imageType == Image2D && r.format == format && r.extent == Extent3D(l.width, l.height, 1)
    ensures r.mipLevels == 1 && r.arrayLayers == 1 && r.samples == 1
    ensures r.tiling == TilingOptimal && r.usage == usage && r.sharingMode == Exclusive
    ensures r.initialLayout == Undefined && r.flags == DefaultImageCreateInfo.flags
  {
    DefaultImageCreateInfo.(imageType := Image2D, format := format, extent := Extent3D(l.width, l.height, 1),
                            mipLevels := 1, arrayLayers := 1, samples := 1, tiling := TilingOptimal,
                            usage := usage, sharingMode := Exclusive, initialLayout := Undefined)
  }

  /** A description SmartRender builds is never the default one, so an empty slot always allocates. */
  lemma BuiltDescriptionIsNeverDefault(format: Format, l: Layer, usage: set<ImageUsage>)
    ensures ImageDescription(format, l, usage) != FreshSlot.info
  {
    assert ImageDescription(format, l, usage).mipLevels != DefaultImageCreateInfo.mipLevels;
  }

  predicate ImageAllocates(props: MemoryProperties, slot: ImageSlot, info: ImageCreateInfo, o: AllocOracle) {
    info != slot.info ==> AllocateImage(props, o, info, ImageMemory).Some?
  }

  /**
   * The image half of the cache check: a new image exactly when the
   * description differs from the cached one in any field; afterwards the
   * cached description is the new one.
   */
  function ValidateImage(props: MemoryProperties, slot: ImageSlot, info: ImageCreateInfo, o: AllocOracle): (r: ImageSlot)
    requires ImageAllocates(props, slot, info, o)
    ensures r.info == info
    ensures info == slot.info ==> r == slot
    ensures info != slot.info ==> r.image == AllocateImage(props, o, info, ImageMemory)
    ensures SlotConsistent(slot) ==> SlotConsistent(r)
  {
    if info == slot.info then slot
    else ImageSlot(info, AllocateImage(props, o, info, ImageMemory))
  }

  /** Validating the same description again changes nothing, whatever the driver would answer. */
  lemma ValidateImageIdempotent(props: MemoryProperties, slot: ImageSlot, info: ImageCreateInfo,
                                o1: AllocOracle, o2: AllocOracle)
    requires ImageAllocates(props, slot, info, o1)
    ensures var s1 := ValidateImage(props, slot, info, o1);
            ImageAllocates(props, s1, info, o2) && ValidateImage(props, s1, info, o2) == s1
  {
  }

  // ---------------------------------------------------------------------------
  // The whole cache check

  /** The driver's answers for the three possible reallocations of one frame. */
  datatype CacheOracle = CacheOracle(staging: AllocOracle, input: AllocOracle, output: AllocOracle)

  /** The input image: a transfer source and destination that is sampled, in the frame's format and the layer's extent. */
  function InputDescription(format: Format, input: Layer): (r: ImageCreateInfo)
    ensures r.usage == {ImageTransferSrc, ImageTransferDst, Sampled}
    ensures r.format == format && r.extent == Extent3D(input.width, input.height, 1)
    ensures r.imageType == Image2D && r.initialLayout == Undefined
  {
    ImageDescription(format, input, InputUsage)
  }

  /** The output image: a transfer source rendered into, in the frame's format and the layer's extent. */
  function OutputDescription(format: Format, output: Layer): (r: ImageCreateInfo)
    ensures r.usage == {ImageTransferSrc, ColorAttachment}
    ensures r.format == format && r.extent == Extent3D(output.width, output.height, 1)
    ensures r.imageType == Image2D && r.initialLayout == Undefined
  {
    ImageDescription(format, output, OutputUsage)
  }

  /**
   * The cache compares whole descriptions, so a cached image is reused
   * exactly when the format and the layer's width and height are the same;
   * rowbytes never matters, and an input description never equals an output
   * one.
   */
  lemma DescriptionsMatchExactlyOnSameImage(f1: Format, l1: Layer, f2: Format, l2: Layer)
    ensures InputDescription(f1, l1) == InputDescription(f2, l2) <==> f1 == f2 && l1.width == l2.width && l1.height == l2.height
    ensures OutputDescription(f1, l1) == OutputDescription(f2, l2) <==> f1 == f2 && l1.width == l2.width && l1.height == l2.height
    ensures InputDescription(f1, l1) != OutputDescription(f2, l2)
  {
    assert Sampled in InputDescription(f1, l1).usage;
    assert Sampled !in OutputDescription(f2, l2).usage;
  }

  /** Every `.value()` the cache check reaches finds an allocation. */
  predicate CacheAllocates(props: MemoryProperties, c: SequenceCache, format: Format, input: Layer, output: Layer,
                           o: CacheOracle) {
    && StagingAllocates(props, c, RequiredStagingSize(input, output), o.staging)
    && ImageAllocates(props, c.input, InputDescription(format, input), o.input)
    && ImageAllocates(props, c.output, OutputDescription(format, output), o.output)
  }

  /**
   * Staging first, then the input image, then the output image, as
   * SmartRender does.  Afterwards both memcpys fit in the staging buffer and
   * both slots describe this frame's images.
   */
  function ValidateCache(props: MemoryProperties, c: SequenceCache, format: Format, input: Layer, output: Layer,
                         o: CacheOracle): (r: SequenceCache)
    requires CacheAllocates(props, c, format, input, output, o)
    ensures LayerBytes(input) <= r.stagingSize && LayerBytes(output) <= r.stagingSize
    ensures r.stagingSize - RequiredStagingSize(input, output) <= ShrinkAllowance(r.stagingSize)
    ensures r.input.info == InputDescription(format, input)
    ensures r.output.info == OutputDescription(format, output)
    ensures CacheConsistent(c) ==> CacheConsistent(r)
  {
    var c1 := ValidateStaging(props, c, RequiredStagingSize(input, output), o.staging);
    var inputSlot := ValidateImage(props, c1.input, InputDescription(format, input), o.input);
    var outputSlot := ValidateImage(props, c1.output, OutputDescription(format, output), o.output);
    c1.(input := inputSlot, output := outputSlot)
  }

  /** A second frame with the same format and layers reallocates nothing. */
  lemma RepeatedFrameReusesCache(props: MemoryProperties, c: SequenceCache, format: Format,
                                 input: Layer, output: Layer, o1: CacheOracle, o2: CacheOracle)
    requires CacheAllocates(props, c, format, input, output, o1)
    ensures var c1 := ValidateCache(props, c, format, input, output, o1);
            CacheAllocates(props, c1, format, input, output, o2)
            && ValidateCache(props, c1, format, input, output, o2) == c1
  {
    var c1 := ValidateCache(props, c, format, input, output, o1);
    var cs := ValidateStaging(props, c, RequiredStagingSize(input, output), o1.staging);
    StagingSettles(props, c, RequiredStagingSize(input, output), o1.staging, o2.staging);
    assert c1.stagingSize == cs.stagingSize && c1.staging == cs.staging;
  }

  /** The first frame on a fresh cache creates both images. */
  lemma FreshCacheCreatesImages(props: MemoryProperties, format: Format, input: Layer, output: Layer, o: CacheOracle)
    requires CacheAllocates(props, FreshCache, format, input, output, o)
    ensures var c := ValidateCache(props, FreshCache, format, input, output, o);
            && c.input.image == AllocateImage(props, o.input, InputDescription(format, input), ImageMemory)
            && c.output.image == AllocateImage(props, o.output, OutputDescription(format, output), ImageMemory)
  {
    BuiltDescriptionIsNeverDefault(format, input, InputUsage);
    BuiltDescriptionIsNeverDefault(format, output, OutputUsage);
  }

  // ---------------------------------------------------------------------------
  // The staging size as written, in 32-bit arithmetic

  /** Two's-complement wrap-around of a product of two `A_long` (32-bit) values. */
  function WrapInt32(x: int): (r: int)
    ensures -0x8000_0000 <= r < 0x8000_0000
    ensures 0 <= x < 0x8000_0000 ==> r == x
  {
    var m := x % 0x1_0000_0000;
    if m >= 0x8000_0000 then m - 0x1_0000_0000 else m
  }

  /** Conversion of a 32-bit signed value to a 64-bit `size_t`. */
  function SizeOfInt32(x: int): (r: nat)
    requires -0x8000_0000 <= x < 0x8000_0000
    ensures 0 <= x ==> r == x
    ensures x < 0 ==> r >= 0x8000_0000_0000_0000
  {
    if x < 0 then x + 0x1_0000_0000_0000_0000 else x
  }

  /**
   * `glm::max(in.height * in.rowbytes, out.height * out.rowbytes)` as
   * written: both products are `A_long` products, wrapped before the maximum
   * is converted to `size_t`.
   */
  function StagingSizeAsWritten(input: Layer, output: Layer): (r: nat)
    ensures r < 0x8000_0000 || r >= 0x8000_0000_0000_0000
    ensures LayerBytes(input) < 0x8000_0000 && LayerBytes(output) < 0x8000_0000 ==> r == RequiredStagingSize(input, output)
    ensures r >= 0x8000_0000_0000_0000 <==> WrapInt32(LayerBytes(input)) < 0 && WrapInt32(LayerBytes(output)) < 0
  {
    var a := WrapInt32(input.height * input.rowbytes);
    var b := WrapInt32(output.height * output.rowbytes);
    SizeOfInt32(if a >= b then a else b)
  }

  /** The download memcpy length `size_t(out.rowbytes) * out.height`, computed in 64 bits. */
  function DownloadBytes(output: Layer): (r: nat)
    ensures r < 0x1_0000_0000_0000_0000
    ensures LayerBytes(output) < 0x1_0000_0000_0000_0000 ==> r == LayerBytes(output)
  {
    (output.rowbytes * output.height) % 0x1_0000_0000_0000_0000
  }

  /** The upload memcpy length `in.rowbytes * in.height`: the same `A_long` product as the staging size, converted to `size_t`. */
  function UploadBytesAsWritten(input: Layer): (r: nat)
    ensures LayerBytes(input) < 0x8000_0000 ==> r == LayerBytes(input)
  {
    SizeOfInt32(WrapInt32(input.rowbytes * input.height))
  }

  /**
   * Where the input's 32-bit product does not wrap to a negative value, the
   * upload copies no more than the staging buffer as written holds.
   */
  lemma UploadFitsAsWritten(input: Layer, output: Layer)
    requires WrapInt32(LayerBytes(input)) >= 0
    ensures UploadBytesAsWritten(input) <= StagingSizeAsWritten(input, output)
  {
    assert input.rowbytes * input.height == LayerBytes(input);
  }

  /**
   * When only the input's 32-bit product wraps negative, the maximum picks the
   * output's size and the allocation succeeds, but the upload converts the
   * negative product to a `size_t` near 2^64: a 23170 x 23170 layer at 32 bits
   * per channel (rowbytes 370720) wraps to -352,192, and a 1000 x 1000 output
   * gives a 16,000,000-byte buffer.
   */
  lemma UploadOverrunsWhenOnlyInputWraps()
    ensures var input, output := Layer(23170, 23170, 370720), Layer(1000, 1000, 16000);
            && WrapInt32(LayerBytes(input)) == -352_192
            && StagingSizeAsWritten(input, output) == 16_000_000
            && UploadBytesAsWritten(input) >= 0x8000_0000_0000_0000
            && UploadBytesAsWritten(input) > StagingSizeAsWritten(input, output)
  {
    var input, output := Layer(23170, 23170, 370720), Layer(1000, 1000, 16000);
    assert LayerBytes(input) == 8_589_582_400;
    assert input.rowbytes * input.height == 8_589_582_400;
    assert WrapInt32(8_589_582_400) == -352_192;
    assert LayerBytes(output) == 16_000_000;
  }

  /** For layers under 2 GiB the 32-bit computation agrees with the required size. */
  lemma StagingSizeAsWrittenAgreesBelow2GiB(input: Layer, output: Layer)
    requires LayerBytes(input) < 0x8000_0000 && LayerBytes(output) < 0x8000_0000
    ensures StagingSizeAsWritten(input, output) == RequiredStagingSize(input, output)
  {
  }

  /**
   * A 30000 x 30000 layer at 32 bits per channel (16 bytes per pixel, rowbytes
   * 480000) needs 14,400,000,000 bytes; the 32-bit product wraps to
   * 1,515,098,112.  The upload copies that same wrapped length and fits; the
   * download, computed in 64 bits, overruns the staging buffer, while the
   * required size covers it.
   */
  lemma StagingSizeWrapsForLargestLayer()
    ensures var l := Layer(30000, 30000, 480000);
            && StagingSizeAsWritten(l, l) == 1_515_098_112
            && DownloadBytes(l) == 14_400_000_000
            && StagingSizeAsWritten(l, l) < DownloadBytes(l)
            && UploadBytesAsWritten(l) == StagingSizeAsWritten(l, l)
            && RequiredStagingSize(l, l) == DownloadBytes(l)
  {
    var l := Layer(30000, 30000, 480000);
    assert LayerBytes(l) == 14_400_000_000;
    assert WrapInt32(14_400_000_000) == 1_515_098_112;
  }
}

=== FILE: layout_tracking.dfy ===
/**
 * The image layouts SmartRender's command buffer walks the input and output
 * images through.  Each recorded command either expects a layout (a copy, a
 * render pass's initial layout, a descriptor's declared layout) or sets one
 * (a barrier, a render pass's subpass and final layouts); replaying the
 * commands checks that every expectation meets the layout the previous
 * command left.
 */
module LayoutTracking {
  import opened Wrappers
  import opened VkTypes
  import opened VulkanUtils
  import opened PipelineCatalog

  datatype ImageRole = InputImage | OutputImage

  datatype Command =
    | ImageBarrier(image: ImageRole, oldLayout: ImageLayout, newLayout: ImageLayout)
    | StagingBarrier
    | CopyBufferToImage(dst: ImageRole, dstLayout: ImageLayout)
    | BeginRenderPass(pass: RenderPassInfo, target: ImageRole)
    | BindPipeline(pipelinePass: RenderPassInfo)
    | BindDescriptorSet(sampled: ImageRole, declaredLayout: ImageLayout)
    | BindVertexBuffer
    | SetViewportAndScissor
    | Draw
    | EndRenderPass
    | CopyImageToBuffer(src: ImageRole, srcLayout: ImageLayout)

  /** An open render pass: its description, the image it renders into and the pipeline bound in it. */
  datatype ActivePass = ActivePass(pass: RenderPassInfo, target: ImageRole, pipelineBound: bool)

  /**
   * The tracked layouts, the open render pass if any, and the descriptor
   * binding that a draw will sample (image and declared layout).
   */
  datatype State = State(input: ImageLayout, output: ImageLayout, active: Option<ActivePass>,
                         sampled: Option<(ImageRole, ImageLayout)>)

  function LayoutOf(s: State, image: ImageRole): ImageLayout {
    match image
    case InputImage => s.input
    case OutputImage => s.output
  }

  function WithLayout(s: State, image: ImageRole, layout: ImageLayout): (r: State)
    ensures LayoutOf(r, image) == layout
    ensures forall other :: other != image ==> LayoutOf(r, other) == LayoutOf(s, other)
    ensures r.active == s.active && r.sampled == s.sampled
  {
    match image
    case InputImage => s.(input := layout)
    case OutputImage => s.(output := layout)
  }

  /** A transition's old layout is acceptable when it is Undefined (contents discarded) or the current layout. */
  predicate OldLayoutMatches(current: ImageLayout, from: ImageLayout) {
    from == Undefined || from == current
  }

  /**
   * One recorded command: `None` when its expectation does not hold.
   * Transfers and barriers happen outside a render pass; binding a pipeline,
   * drawing and ending happen inside one.
   */
  function Step(s: State, c: Command): (r: Option<State>)
    ensures c.ImageBarrier? ==> (r.Some? <==> s.active.None? && OldLayoutMatches(LayoutOf(s, c.image), c.oldLayout))
    ensures c.StagingBarrier? ==> (r.Some? <==> s.active.None?)
    ensures c.CopyBufferToImage? ==>
              (r.Some? <==> s.active.None? && LayoutOf(s, c.dst) == c.dstLayout == TransferDstOptimal)
    ensures c.BeginRenderPass? ==>
              (r.Some? <==> s.active.None? && OldLayoutMatches(LayoutOf(s, c.target), c.pass.initialLayout))
    ensures c.BindPipeline? ==> (r.Some? <==> s.active.Some? && s.active.value.pass == c.pipelinePass)
    ensures c.Draw? ==>
              (r.Some? <==> && s.active.Some? && s.active.value.pipelineBound && s.sampled.Some?
                            && LayoutOf(s, s.sampled.value.0) == s.sampled.value.1
                            && s.sampled.value.0 != s.active.value.target)
    ensures c.EndRenderPass? ==> (r.Some? <==> s.active.Some?)
    ensures c.CopyImageToBuffer? ==>
              (r.Some? <==> s.active.None? && LayoutOf(s, c.src) == c.srcLayout == TransferSrcOptimal)
    ensures c.BindDescriptorSet? || c.BindVertexBuffer? || c.SetViewportAndScissor? ==> r.Some?
    ensures r.Some? && c.ImageBarrier? ==> r.value == WithLayout(s, c.image, c.newLayout)
    ensures r.Some? && (c.StagingBarrier? || c.CopyBufferToImage? || c.CopyImageToBuffer? || c.Draw?) ==> r.value == s
    ensures r.Some? && c.BeginRenderPass? ==>
              && LayoutOf(r.value, c.target) == c.pass.subpassLayout
              && r.value.active == Some(ActivePass(c.pass, c.target, false))
    ensures r.Some? && c.BindDescriptorSet? ==> r.value.sampled == Some((c.sampled, c.declaredLayout))
    ensures r.Some? && c.EndRenderPass? ==>
              && r.value.active.None?
              && LayoutOf(r.value, s.active.value.target) == s.active.value.pass.finalLayout
  {
    match c
    case ImageBarrier(image, from, to) =>
      if s.active.None? && OldLayoutMatches(LayoutOf(s, image), from) then Some(WithLayout(s, image, to)) else None
    case StagingBarrier =>
      if s.active.None? then Some(s) else None
    case CopyBufferToImage(dst, layout) =>
      if s.active.None? && layout == TransferDstOptimal && LayoutOf(s, dst) == layout then Some(s) else None
    case BeginRenderPass(pass, target) =>
      if s.active.None? && OldLayoutMatches(LayoutOf(s, target), pass.initialLayout) then
        Some(WithLayout(s, target, pass.subpassLayout).(active := Some(ActivePass(pass, target, false))))
      else None
    case BindPipeline(pipelinePass) =>
      if s.active.Some? && s.active.value.pass == pipelinePass then
        Some(s.(active := Some(s.active.value.(pipelineBound := true))))
      else None
    case BindDescriptorSet(image, declared) =>
      Some(s.(sampled := Some((image, declared))))
    case BindVertexBuffer => Some(s)
    case SetViewportAndScissor => Some(s)
    case Draw =>
      if s.active.Some? && s.active.value.pipelineBound && s.sampled.Some?
         && LayoutOf(s, s.sampled.value.0) == s.sampled.value.1
         && s.sampled.value.0 != s.active.value.target
      then Some(s)
      else None
    case EndRenderPass =>
      if s.active.Some? then
        Some(WithLayout(s, s.active.value.target, s.active.value.pass.finalLayout).(active := None))
      else None
    case CopyImageToBuffer(src, layout) =>
      if s.active.None? && layout == TransferSrcOptimal && LayoutOf(s, src) == layout then Some(s) else None
  }

  /** Replays a command sequence; `None` as soon as one command's expectation fails. */
  function Replay(s: State, cmds: seq<Command>): Option<State>
    decreases |cmds|
  {
    if |cmds| == 0 then Some(s)
    else
      match Step(s, cmds[0])
      case None => None
      case Some(next) => Replay(next, cmds[1..])
  }

  /** Replaying two pieces one after the other is replaying their concatenation. */
  lemma {:induction false} ReplayAppend(s: State, a: seq<Command>, b: seq<Command>)
    ensures Replay(s, a + b) == (match Replay(s, a) case None => None case Some(mid) => Replay(mid, b))
    decreases |a|
  {
    if |a| == 0 {
      assert a + b == b;
    } else {
      assert (a + b)[0] == a[0];
      assert (a + b)[1..] == a[1..] + b;
      match Step(s, a[0])
      case None =>
      case Some(next) => ReplayAppend(next, a[1..], b);
    }
  }

  /** The layout binding 1's image write declares, so the layout the draw samples the input in. */
  const SampledLayout: ImageLayout := ShaderReadOnlyOptimal

  /** Upload: staging buffer to input image (barrier, copy, barrier to the sampled layout; output to attachment). */
  function UploadCommands(): seq<Command> {
    [ StagingBarrier,
      ImageBarrier(InputImage, Undefined, TransferDstOptimal),
      CopyBufferToImage(InputImage, TransferDstOptimal),
      ImageBarrier(InputImage, TransferDstOptimal, ShaderReadOnlyOptimal),
      ImageBarrier(OutputImage, Undefined, ColorAttachmentOptimal) ]
  }

  /** The render pass of depth class `pass`: bind pipeline, descriptor set and mesh, set the viewport, draw. */
  function DrawCommands(pass: RenderPassInfo): seq<Command> {
    [ BeginRenderPass(pass, OutputImage),
      BindPipeline(pass),
      BindDescriptorSet(InputImage, SampledLayout),
      BindVertexBuffer,
      SetViewportAndScissor,
      Draw,
      EndRenderPass ]
  }

  /** Download: staging barrier, then output image to staging buffer in TransferSrcOptimal. */
  function DownloadCommands(): seq<Command> {
    [ StagingBarrier,
      CopyImageToBuffer(OutputImage, TransferSrcOptimal) ]
  }

  /** Everything SmartRender records between begin and end, for the pass of its depth class. */
  function FrameCommands(pass: RenderPassInfo): seq<Command> {
    UploadCommands() + DrawCommands(pass) + DownloadCommands()
  }

  /** The state after a frame: input ready to be sampled, output ready to be read back, no pass open. */
  predicate FrameEndState(s: State) {
    s.input == ShaderReadOnlyOptimal && s.output == TransferSrcOptimal && s.active.None?
    && s.sampled == Some((InputImage, SampledLayout))
  }

  /**
   * The upload succeeds exactly when no render pass is open, whatever layouts
   * the images start in, and leaves the input in the sampled layout and the
   * output ready to be a color attachment.
   */
  lemma UploadReadiesImages(s: State)
    ensures Replay(s, UploadCommands()).Some? <==> s.active.None?
    ensures s.active.None? ==>
              Replay(s, UploadCommands()) == Some(s.(input := SampledLayout, output := ColorAttachmentOptimal))
  {
    var c := UploadCommands();
    assert c == [c[0]] + c[1..];
    assert c[1..] == [c[1]] + c[2..];
  }

  /**
   * With no pass open, the download succeeds exactly when the output is
   * already in TransferSrcOptimal, and then changes no layout.
   */
  lemma DownloadReadsBack(t: State)
    requires t.active.None?
    ensures Replay(t, DownloadCommands()).Some? <==> t.output == TransferSrcOptimal
    ensures t.output == TransferSrcOptimal ==> Replay(t, DownloadCommands()) == Some(t)
  {
  }

  /**
   * Every expectation in a frame holds whatever layouts the images start in
   * (each is first transitioned from Undefined), for each of the three render
   * passes; the frame ends with the input in ShaderReadOnlyOptimal and the
   * output in TransferSrcOptimal.
   */
  lemma FrameLayoutsMatch(s: State, d: nat)
    requires s.active.None?
    requires d < PassCount
    ensures Replay(s, FrameCommands(RenderPassDescription(RenderFormats[d]))).Some?
    ensures FrameEndState(Replay(s, FrameCommands(RenderPassDescription(RenderFormats[d]))).value)
  {
    var pass := RenderPassDescription(RenderFormats[d]);
    ReplayAppend(s, UploadCommands() + DrawCommands(pass), DownloadCommands());
    ReplayAppend(s, UploadCommands(), DrawCommands(pass));
    var s1 := Replay(s, UploadCommands());
    assert s1 == Some(s.(input := ShaderReadOnlyOptimal, output := ColorAttachmentOptimal));
    DrawFromAttachment(s1.value, pass, ShaderReadOnlyOptimal);
  }

  /**
   * The draw commands of a pass whose layouts are those of
   * RenderPassDescription, started with the output in ColorAttachmentOptimal:
   * they succeed exactly when the input is in the sampled layout, and leave the
   * output in TransferSrcOptimal.
   */
  lemma DrawFromAttachment(t: State, pass: RenderPassInfo, inputLayout: ImageLayout)
    requires t.active.None? && t.input == inputLayout && t.output == ColorAttachmentOptimal
    requires pass == RenderPassDescription(pass.format)
    ensures inputLayout == SampledLayout ==>
              Replay(t, DrawCommands(pass))
                == Some(t.(output := TransferSrcOptimal, sampled := Some((InputImage, SampledLayout))))
    ensures inputLayout != SampledLayout ==> Replay(t, DrawCommands(pass)).None?
  {
    var c := DrawCommands(pass);
    var t3 := t.(active := Some(ActivePass(pass, OutputImage, true)), sampled := Some((InputImage, SampledLayout)));
    var t7 := t3.(output := TransferSrcOptimal, active := None);
    DrawOpening(t, pass);
    assert c[3..] == [BindVertexBuffer, SetViewportAndScissor, Draw, EndRenderPass];
    DrawClosing(t3, pass);
  }

  /** The last four draw commands: the draw samples the input, and ending the pass applies its final layout. */
  lemma DrawClosing(t3: State, pass: RenderPassInfo)
    requires t3.active == Some(ActivePass(pass, OutputImage, true))
    requires t3.sampled == Some((InputImage, SampledLayout))
    requires pass.finalLayout == TransferSrcOptimal
    ensures var tail := [BindVertexBuffer, SetViewportAndScissor, Draw, EndRenderPass];
            && (t3.input == SampledLayout ==>
                  Replay(t3, tail) == Some(t3.(output := TransferSrcOptimal, active := None)))
            && (t3.input != SampledLayout ==> Replay(t3, tail).None?)
  {
    var tail := [BindVertexBuffer, SetViewportAndScissor, Draw, EndRenderPass];
    var t7 := t3.(output := TransferSrcOptimal, active := None);
    assert tail[1..] == [SetViewportAndScissor, Draw, EndRenderPass];
    assert tail[1..][1..] == [Draw, EndRenderPass];
    assert tail[1..][1..][1..] == [EndRenderPass];
    if t3.input == SampledLayout {
      assert Replay(t3, [EndRenderPass]) == Some(t7);
    }
  }

  /** Beginning the pass, binding the pipeline and the descriptor set only record the pass and the sampled input. */
  lemma DrawOpening(t: State, pass: RenderPassInfo)
    requires t.active.None? && t.output == ColorAttachmentOptimal
    requires pass == RenderPassDescription(pass.format)
    ensures |DrawCommands(pass)| >= 3
    ensures Replay(t, DrawCommands(pass))
         == Replay(t.(active := Some(ActivePass(pass, OutputImage, true)), sampled := Some((InputImage, SampledLayout))),
                   DrawCommands(pass)[3..])
  {
    var c := DrawCommands(pass);
    var t1 := t.(active := Some(ActivePass(pass, OutputImage, false)));
    var t2 := t1.(active := Some(ActivePass(pass, OutputImage, true)));
    var t3 := t2.(sampled := Some((InputImage, SampledLayout)));
    assert Step(t, c[0]) == Some(t1);
    assert Step(t1, c[1]) == Some(t2);
    assert Step(t2, c[2]) == Some(t3);
    assert Replay(t2, c[2..]) == Replay(t3, c[3..]);
    assert Replay(t1, c[1..]) == Replay(t2, c[2..]);
    assert Replay(t, c) == Replay(t1, c[1..]);
  }

  /** Frames chain: after any number of frames every expectation still holds and the end state is the same. */
  lemma {:induction false} RepeatedFramesMatch(s: State, d: nat, n: nat)
    requires s.active.None?
    requires d < PassCount
    ensures var r := Replay(s, Repeat(FrameCommands(RenderPassDescription(RenderFormats[d])), n));
            r.Some? && (n > 0 ==> FrameEndState(r.value)) && r.value.active.None?
    decreases n
  {
    var frame := FrameCommands(RenderPassDescription(RenderFormats[d]));
    if n == 0 {
      assert Repeat(frame, 0) == [];
    } else {
      FrameLayoutsMatch(s, d);
      var mid := Replay(s, frame).value;
      RepeatedFramesMatch(mid, d, n - 1);
      ReplayAppend(s, frame, Repeat(frame, n - 1));
      if n - 1 == 0 {
        assert Repeat(frame, 0) == [];
      }
    }
  }

  function Repeat(cmds: seq<Command>, n: nat): seq<Command>
  {
    if n == 0 then [] else cmds + Repeat(cmds, n - 1)
  }

  /**
   * The second upload barrier is needed: without the TransferDst to
   * ShaderReadOnly transition the draw samples the input in the wrong layout.
   */
  lemma SkippingSampleBarrierFails(s: State, d: nat)
    requires s.active.None?
    requires d < PassCount
    ensures var upload := UploadCommands();
            var withoutBarrier := upload[..3] + upload[4..];
            Replay(s, withoutBarrier + DrawCommands(RenderPassDescription(RenderFormats[d]))).None?
  {
    var upload := UploadCommands();
    var withoutBarrier := upload[..3] + upload[4..];
    var pass := RenderPassDescription(RenderFormats[d]);
    ReplayAppend(s, withoutBarrier, DrawCommands(pass));
    var w := [StagingBarrier, ImageBarrier(InputImage, Undefined, TransferDstOptimal),
              CopyBufferToImage(InputImage, TransferDstOptimal), ImageBarrier(OutputImage, Undefined, ColorAttachmentOptimal)];
    assert withoutBarrier == w;
    var a := s.(input := TransferDstOptimal);
    var b := a.(output := ColorAttachmentOptimal);
    assert Replay(b, w[4..]) == Some(b);
    assert Replay(a, w[3..]) == Some(b);
    assert Replay(a, w[2..]) == Some(b);
    assert Replay(s, w[1..]) == Some(b);
    assert Replay(s, w) == Some(b);
    var s1 := Replay(s, withoutBarrier);
    DrawFromAttachment(s1.value, pass, TransferDstOptimal);
  }

  /**
   * The render pass's layouts and the copies agree: the output's barrier
   * target is the pass's initial layout, and the pass's final layout is the
   * layout the copy back reads from.
   */
  lemma PassLayoutsMeetCopies(d: nat)
    requires d < PassCount
    ensures var pass := RenderPassDescription(RenderFormats[d]);
            && pass.initialLayout == UploadCommands()[4].newLayout
            && pass.finalLayout == DownloadCommands()[1].srcLayout
            && UploadCommands()[3].newLayout == SampledLayout
  {
  }
}

=== FILE: pipeline_catalog.dfy ===
/**
 * The objects GlobalSetup builds once per plug-in load: the logical device on
 * the chosen physical device, one render pass and one graphics pipeline per
 * depth class, the descriptor pool and set layout, the shader modules and the
 * quad's vertex buffer.  Every Vulkan call is an answer in a `SetupOracle`.
 */
module PipelineCatalog {
  import opened Wrappers
  import opened VkTypes
  import opened VulkanUtils
  import opened DeviceSelection
  import opened ShaderInterface

  // ---------------------------------------------------------------------------
  // Render passes

  datatype LoadOp = LoadLoad | LoadClear | LoadDontCare

  datatype StoreOp = StoreStore | StoreDontCare

  /** The single colour attachment of a pass and the layout its subpass uses it in. */
  datatype RenderPassInfo = RenderPassInfo(
    format: Format,
    loadOp: LoadOp,
    storeOp: StoreOp,
    stencilLoadOp: LoadOp,
    stencilStoreOp: StoreOp,
    initialLayout: ImageLayout,
    subpassLayout: ImageLayout,
    finalLayout: ImageLayout)

  datatype RenderPass = RenderPass(handle: Handle, info: RenderPassInfo)

  /** Number of depth classes, and so of render passes and pipelines. */
  const PassCount: nat := 3

  /**
   * The pass GlobalSetup describes for one attachment format: clear and
   * store the colour, ignore stencil, expect ColorAttachmentOptimal on entry,
   * render in ColorAttachmentOptimal and leave TransferSrcOptimal for the copy
   * back to the staging buffer.
   */
  function RenderPassDescription(format: Format): (r: RenderPassInfo)
    ensures r.format == format
    ensures r.loadOp == LoadClear && r.storeOp == StoreStore
    ensures r.stencilLoadOp == LoadDontCare && r.stencilStoreOp == StoreDontCare
    ensures r.initialLayout == ColorAttachmentOptimal && r.subpassLayout == ColorAttachmentOptimal
    ensures r.finalLayout == TransferSrcOptimal
  {
    RenderPassInfo(format, LoadClear, StoreStore, LoadDontCare, StoreDontCare,
                   ColorAttachmentOptimal, ColorAttachmentOptimal, TransferSrcOptimal)
  }

  /**
   * The render-pass loop from index `i` on: pass `j` uses `RenderFormats[j]`;
   * the first failing vkCreateRenderPass ends the loop.
   */
  function BuildRenderPassesFrom(ok: seq<bool>, handles: seq<Handle>, i: nat): (r: Option<seq<RenderPass>>)
    requires |ok| == |handles| == PassCount && i <= PassCount
    ensures r.Some? <==> forall j :: i <= j < PassCount ==> ok[j]
    ensures r.Some? ==> |r.value| == PassCount - i
    ensures r.Some? ==> forall j :: 0 <= j < |r.value| ==>
              r.value[j].handle == handles[i + j] && r.value[j].info.format == RenderFormats[i + j]
    ensures r.Some? ==> forall j :: 0 <= j < |r.value| ==>
              r.value[j].info == RenderPassDescription(r.value[j].info.format)
    decreases PassCount - i
  {
    if i == PassCount then Some([])
    else if !ok[i] then None
    else
      match BuildRenderPassesFrom(ok, handles, i + 1)
      case None => None
      case Some(rest) => Some([RenderPass(handles[i], RenderPassDescription(RenderFormats[i]))] + rest)
  }

  function BuildRenderPasses(ok: seq<bool>, handles: seq<Handle>): (r: Option<seq<RenderPass>>)
    requires |ok| == |handles| == PassCount
    ensures r.Some? <==> forall j :: 0 <= j < PassCount ==> ok[j]
    ensures r.Some? ==> |r.value| == PassCount
    ensures r.Some? ==> forall d :: 0 <= d < PassCount ==>
              && r.value[d].handle == handles[d]
              && r.value[d].info == RenderPassDescription(RenderFormats[d])
  {
    BuildRenderPassesFrom(ok, handles, 0)
  }

  // ---------------------------------------------------------------------------
  // Descriptor pool and set layout

  datatype DescriptorType = UniformBufferDescriptor | CombinedImageSampler

  datatype ShaderStage = VertexStage | FragmentStage

  /** `eAllGraphics` for the two stages this pipeline has. */
  const AllGraphics: set<ShaderStage> := {VertexStage, FragmentStage}

  datatype LayoutBinding = LayoutBinding(binding: nat, descriptorType: DescriptorType, count: nat,
                                         stages: set<ShaderStage>)

  /** Binding 0 holds the uniform buffer for every stage, binding 1 the sampled input for the fragment shader. */
  const SetLayoutBindings: seq<LayoutBinding> := [
    LayoutBinding(0, UniformBufferDescriptor, 1, AllGraphics),
    LayoutBinding(1, CombinedImageSampler, 1, {FragmentStage})
  ]

  /**
   * The set layout gives each binding number one entry, holds a
   * single-descriptor binding of each type, and makes the uniform buffer
   * visible to both stages and the sampler to the fragment stage.
   */
  lemma SetLayoutHoldsOneOfEach()
    ensures forall i, j :: 0 <= i < j < |SetLayoutBindings| ==>
              SetLayoutBindings[i].binding != SetLayoutBindings[j].binding
    ensures exists k :: 0 <= k < |SetLayoutBindings|
              && SetLayoutBindings[k].descriptorType == UniformBufferDescriptor && SetLayoutBindings[k].count == 1
    ensures exists k :: 0 <= k < |SetLayoutBindings|
              && SetLayoutBindings[k].descriptorType == CombinedImageSampler && SetLayoutBindings[k].count == 1
    ensures forall k :: 0 <= k < |SetLayoutBindings| && SetLayoutBindings[k].descriptorType == UniformBufferDescriptor
              ==> SetLayoutBindings[k].stages == AllGraphics
    ensures forall k :: 0 <= k < |SetLayoutBindings| && SetLayoutBindings[k].descriptorType == CombinedImageSampler
              ==> FragmentStage in SetLayoutBindings[k].stages
  {
    assert SetLayoutBindings[0].descriptorType == UniformBufferDescriptor;
    assert SetLayoutBindings[1].descriptorType == CombinedImageSampler;
  }

  /** One `vkUpdateDescriptorSets` write; `imageLayout` is the layout an image write declares. */
  datatype DescriptorWrite = DescriptorWrite(binding: nat, arrayElement: nat, count: nat,
                                             descriptorType: DescriptorType,
                                             imageLayout: Option<ImageLayout>)

  /** A write is legal for the layout when its binding exists with the same type and the elements fit. */
  predicate WriteMatchesLayout(w: DescriptorWrite, bindings: seq<LayoutBinding>) {
    exists k :: 0 <= k < |bindings| && bindings[k].binding == w.binding
                && bindings[k].descriptorType == w.descriptorType
                && w.arrayElement + w.count <= bindings[k].count
                && (w.descriptorType == CombinedImageSampler <==> w.imageLayout.Some?)
  }

  /** The pool: 512 descriptors of each type and at most 1024 sets. */
  datatype DescriptorPool = DescriptorPool(uniformBuffers: nat, imageSamplers: nat, maxSets: nat)

  const SetupDescriptorPool: DescriptorPool := DescriptorPool(512, 512, 1024)

  /** Descriptors of type `t` that one set with these bindings takes from the pool. */
  function DescriptorsPerSet(bindings: seq<LayoutBinding>, t: DescriptorType): (r: nat)
    ensures forall k :: 0 <= k < |bindings| && bindings[k].descriptorType == t ==> bindings[k].count <= r
    ensures (forall k :: 0 <= k < |bindings| ==> bindings[k].descriptorType != t) ==> r == 0
  {
    if |bindings| == 0 then 0
    else
      (if bindings[0].descriptorType == t then bindings[0].count else 0) + DescriptorsPerSet(bindings[1..], t)
  }

  /** Whether the pool can hand out `n` sets of this layout. */
  predicate PoolAdmits(pool: DescriptorPool, bindings: seq<LayoutBinding>, n: nat) {
    && n <= pool.maxSets
    && n * DescriptorsPerSet(bindings, UniformBufferDescriptor) <= pool.uniformBuffers
    && n * DescriptorsPerSet(bindings, CombinedImageSampler) <= pool.imageSamplers
  }

  /**
   * Each sequence takes one set holding one descriptor of each type, so the
   * pool serves 512 sequences: the per-type sizes, not `maxSets`, bound it.
   */
  lemma DescriptorPoolServes512Sequences()
    ensures DescriptorsPerSet(SetLayoutBindings, UniformBufferDescriptor) == 1
    ensures DescriptorsPerSet(SetLayoutBindings, CombinedImageSampler) == 1
    ensures PoolAdmits(SetupDescriptorPool, SetLayoutBindings, 512)
    ensures !PoolAdmits(SetupDescriptorPool, SetLayoutBindings, 513)
    ensures 513 <= SetupDescriptorPool.maxSets
  {
    assert SetLayoutBindings[1..] == [LayoutBinding(1, CombinedImageSampler, 1, {FragmentStage})];
    assert SetLayoutBindings[1..][1..] == [];
  }

  // ---------------------------------------------------------------------------
  // Graphics pipelines

  datatype Topology = TriangleList | TriangleStrip

  datatype DynamicState = DynamicViewport | DynamicScissor

  /** The state a pipeline fixes: everything but the render pass is shared by the three pipelines. */
  datatype PipelineInfo = PipelineInfo(
    stages: seq<(ShaderStage, Handle)>,
    binding: VertexBinding,
    attributes: seq<VertexAttribute>,
    topology: Topology,
    dynamicStates: set<DynamicState>,
    layout: Handle,
    renderPass: Handle,
    subpass: nat)

  datatype Pipeline = Pipeline(handle: Handle, info: PipelineInfo)

  function PipelineDescription(vert: Handle, frag: Handle, layout: Handle, pass: Handle): (r: PipelineInfo)
    ensures r.renderPass == pass && r.layout == layout && r.subpass == 0
    ensures r.stages == [(VertexStage, vert), (FragmentStage, frag)]
    ensures r.topology == TriangleStrip && r.dynamicStates == {DynamicViewport, DynamicScissor}
    ensures r.binding == VertexBindingDescription() && r.attributes == VertexAttributes()
  {
    PipelineInfo([(VertexStage, vert), (FragmentStage, frag)], VertexBindingDescription(), VertexAttributes(),
                 TriangleStrip, {DynamicViewport, DynamicScissor}, layout, pass, 0)
  }

  /** The pipeline loop from index `i` on: pipeline `j` is made for pass `j`. */
  function BuildPipelinesFrom(passes: seq<RenderPass>, vert: Handle, frag: Handle, layout: Handle,
                              ok: seq<bool>, handles: seq<Handle>, i: nat): (r: Option<seq<Pipeline>>)
    requires |passes| == |ok| == |handles| == PassCount && i <= PassCount
    ensures r.Some? <==> forall j :: i <= j < PassCount ==> ok[j]
    ensures r.Some? ==> |r.value| == PassCount - i
    ensures r.Some? ==> forall j :: 0 <= j < |r.value| ==>
              r.value[j] == Pipeline(handles[i + j], PipelineDescription(vert, frag, layout, passes[i + j].handle))
    decreases PassCount - i
  {
    if i == PassCount then Some([])
    else if !ok[i] then None
    else
      match BuildPipelinesFrom(passes, vert, frag, layout, ok, handles, i + 1)
      case None => None
      case Some(rest) => Some([Pipeline(handles[i], PipelineDescription(vert, frag, layout, passes[i].handle))] + rest)
  }

  // ---------------------------------------------------------------------------
  // GlobalSetup

  /** The driver's answers to every call GlobalSetup makes, in order. */
  datatype SetupOracle = SetupOracle(
    enumerateOk: bool,
    devices: seq<PhysicalDevice>,
    deviceOk: bool,
    commandPoolOk: bool,
    passOk: seq<bool>,
    passHandles: seq<Handle>,
    vertCode: seq<Byte>,
    vertOk: bool,
    vertHandle: Handle,
    fragCode: seq<Byte>,
    fragOk: bool,
    fragHandle: Handle,
    descriptorPoolOk: bool,
    setLayoutOk: bool,
    pipelineLayoutOk: bool,
    pipelineLayoutHandle: Handle,
    pipelineOk: seq<bool>,
    pipelineHandles: seq<Handle>,
    mesh: AllocOracle,
    meshMapOk: bool)

  predicate WellFormedSetupOracle(o: SetupOracle) {
    |o.passOk| == |o.passHandles| == |o.pipelineOk| == |o.pipelineHandles| == PassCount
  }

  /** What GlobalParams holds once GlobalSetup returns PF_Err_NONE. */
  datatype Global = Global(
    physicalDevice: PhysicalDevice,
    passes: seq<RenderPass>,
    setLayout: seq<LayoutBinding>,
    pool: DescriptorPool,
    pipelineLayout: Handle,
    pipelines: seq<Pipeline>,
    mesh: BufferAllocation)

  /** Usage and memory properties of the quad's vertex buffer. */
  const MeshUsage: set<BufferUsage> := {VertexBuffer}

  const HostMemory: set<MemoryProperty> := {HostCached, HostCoherent}

  /**
   * The catalog a successful GlobalSetup leaves: one pass and one pipeline
   * per depth class, pipeline `d` made for pass `d`, and the quad's buffer.
   */
  predicate ValidGlobal(g: Global) {
    && |g.passes| == |g.pipelines| == PassCount
    && (forall d :: 0 <= d < PassCount ==>
          && g.passes[d].info == RenderPassDescription(RenderFormats[d])
          && g.pipelines[d].info.renderPass == g.passes[d].handle
          && g.pipelines[d].info.layout == g.pipelineLayout)
    && g.setLayout == SetLayoutBindings
    && g.mesh.info.size == MeshBufferSize()
    && g.mesh.info.usage == MeshUsage
  }

  /** The device, the command pool, every render pass and both shader modules are created. */
  predicate DeviceCallsSucceed(o: SetupOracle)
    requires WellFormedSetupOracle(o)
  {
    && o.deviceOk && o.commandPoolOk
    && (forall j :: 0 <= j < PassCount ==> o.passOk[j])
    && LoadShaderModule(o.vertCode, o.vertOk, o.vertHandle).Some?
    && LoadShaderModule(o.fragCode, o.fragOk, o.fragHandle).Some?
  }

  /** The descriptor pool, the set layout, the pipeline layout and every pipeline are created. */
  predicate CatalogReachesMesh(o: SetupOracle)
    requires WellFormedSetupOracle(o)
  {
    && o.descriptorPoolOk && o.setLayoutOk && o.pipelineLayoutOk
    && (forall j :: 0 <= j < PassCount ==> o.pipelineOk[j])
  }

  /** `AllocateBuffer` finds memory for the quad's buffer on `device`. */
  predicate MeshAllocates(o: SetupOracle, device: PhysicalDevice) {
    AllocateBuffer(device.memory, o.mesh, MeshBufferSize(), MeshUsage, HostMemory).Some?
  }

  /** Everything after the shader modules succeeds, up to the mapping of the quad's buffer. */
  predicate CatalogCallsSucceed(o: SetupOracle, device: PhysicalDevice)
    requires WellFormedSetupOracle(o)
  {
    CatalogReachesMesh(o) && MeshAllocates(o, device) && o.meshMapOk
  }

  /**
   * GlobalSetup from device enumeration on: each failing call returns
   * PF_Err_INTERNAL_STRUCT_DAMAGED, an empty device list makes
   * `PhysicalDevices.at(0)` throw, and a failed mesh allocation makes
   * `.value()` throw.
   */
  function GlobalSetup(o: SetupOracle): (r: Result<Global, PluginError>)
    requires WellFormedSetupOracle(o)
    ensures r.Ok? ==> ValidGlobal(r.value)
    ensures r.Ok? ==> && o.enumerateOk && |o.devices| > 0
                      && r.value.physicalDevice == o.devices[0]
                      && (forall j :: 0 <= j < PassCount ==> o.passOk[j] && o.pipelineOk[j])
    ensures r.Ok? ==> && LoadShaderModule(o.vertCode, o.vertOk, o.vertHandle).Some?
                      && LoadShaderModule(o.fragCode, o.fragOk, o.fragHandle).Some?
    ensures r.Ok? ==> && r.value.pool == SetupDescriptorPool
                      && r.value.mesh.bindOffset == 0
                      && IsFirstSuitable(o.devices[0].memory.memoryTypes, o.mesh.requirements.memoryTypeBits,
                                         HostMemory, DefaultExcludedProperties,
                                         r.value.mesh.memory.memoryTypeIndex)
    ensures r == Err(UncaughtOutOfRange) <==> o.enumerateOk && |o.devices| == 0
    ensures !o.enumerateOk ==> r == Err(InternalStructDamaged)
    ensures r.Ok? <==> && o.enumerateOk && |o.devices| > 0
                       && DeviceCallsSucceed(o) && CatalogCallsSucceed(o, o.devices[0])
    ensures r == Err(UncaughtBadOptionalAccess) <==>
              && o.enumerateOk && |o.devices| > 0
              && DeviceCallsSucceed(o) && CatalogReachesMesh(o) && !MeshAllocates(o, o.devices[0])
    ensures r.Err? ==> r.error != OutOfMemory
  {
    if !o.enumerateOk then Err(InternalStructDamaged)
    else
      match SelectPhysicalDevice(o.devices)
      case None => Err(UncaughtOutOfRange)
      case Some(device) => DeviceSetup(o, device)
  }

  /** GlobalSetup once a physical device is chosen: the device, command pool, passes and shader modules. */
  function DeviceSetup(o: SetupOracle, device: PhysicalDevice): (r: Result<Global, PluginError>)
    requires WellFormedSetupOracle(o)
    ensures r.Ok? ==> ValidGlobal(r.value)
    ensures r.Ok? ==> && r.value.physicalDevice == device
                      && (forall j :: 0 <= j < PassCount ==> o.passOk[j] && o.pipelineOk[j])
    ensures r.Ok? ==> && LoadShaderModule(o.vertCode, o.vertOk, o.vertHandle).Some?
                      && LoadShaderModule(o.fragCode, o.fragOk, o.fragHandle).Some?
    ensures r.Ok? ==> && r.value.pool == SetupDescriptorPool
                      && r.value.mesh.bindOffset == 0
                      && IsFirstSuitable(device.memory.memoryTypes, o.mesh.requirements.memoryTypeBits,
                                         HostMemory, DefaultExcludedProperties,
                                         r.value.mesh.memory.memoryTypeIndex)
    ensures r.Ok? <==> DeviceCallsSucceed(o) && CatalogCallsSucceed(o, device)
    ensures r == Err(UncaughtBadOptionalAccess) <==>
              DeviceCallsSucceed(o) && CatalogReachesMesh(o) && !MeshAllocates(o, device)
    ensures r.Err? ==> r.error == InternalStructDamaged || r.error == UncaughtBadOptionalAccess
  {
    if !o.deviceOk || !o.commandPoolOk then Err(InternalStructDamaged)
    else
      match BuildRenderPasses(o.passOk, o.passHandles)
      case None => Err(InternalStructDamaged)
      case Some(passes) =>
        match LoadShaderModule(o.vertCode, o.vertOk, o.vertHandle)
        case None => Err(InternalStructDamaged)
        case Some(vert) =>
          match LoadShaderModule(o.fragCode, o.fragOk, o.fragHandle)
          case None => Err(InternalStructDamaged)
          case Some(frag) => CatalogSetup(o, device, passes, vert.handle, frag.handle)
  }

  /** The rest of GlobalSetup: descriptor pool, set layout, pipeline layout, pipelines and the quad's buffer. */
  function CatalogSetup(o: SetupOracle, device: PhysicalDevice, passes: seq<RenderPass>,
                        vert: Handle, frag: Handle): (r: Result<Global, PluginError>)
    requires WellFormedSetupOracle(o)
    requires |passes| == PassCount
    requires forall d :: 0 <= d < PassCount ==> passes[d].info == RenderPassDescription(RenderFormats[d])
    ensures r.Ok? ==> ValidGlobal(r.value)
    ensures r.Ok? ==> && r.value.physicalDevice == device && r.value.passes == passes
                      && (forall j :: 0 <= j < PassCount ==> o.pipelineOk[j])
    ensures r.Ok? ==> && r.value.pool == SetupDescriptorPool
                      && r.value.mesh.bindOffset == 0
                      && IsFirstSuitable(device.memory.memoryTypes, o.mesh.requirements.memoryTypeBits,
                                         HostMemory, DefaultExcludedProperties,
                                         r.value.mesh.memory.memoryTypeIndex)
    ensures r.Ok? <==> CatalogCallsSucceed(o, device)
    ensures r == Err(UncaughtBadOptionalAccess) <==> CatalogReachesMesh(o) && !MeshAllocates(o, device)
    ensures r.Err? ==> r.error == InternalStructDamaged || r.error == UncaughtBadOptionalAccess
  {
    if !o.descriptorPoolOk || !o.setLayoutOk || !o.pipelineLayoutOk then Err(InternalStructDamaged)
    else
      match BuildPipelinesFrom(passes, vert, frag, o.pipelineLayoutHandle, o.pipelineOk, o.pipelineHandles, 0)
      case None => Err(InternalStructDamaged)
      case Some(pipelines) =>
        match AllocateBuffer(device.memory, o.mesh, MeshBufferSize(), MeshUsage, HostMemory)
        case None => Err(UncaughtBadOptionalAccess)
        case Some(mesh) =>
          if !o.meshMapOk then Err(InternalStructDamaged)
          else
            CatalogIsValid(device, passes, o.pipelineLayoutHandle, pipelines, mesh);
            Ok(Global(device, passes, SetLayoutBindings, SetupDescriptorPool,
                      o.pipelineLayoutHandle, pipelines, mesh))
  }

  /** Passes and pipelines built for each depth class, with the quad's buffer, make a valid catalog. */
  lemma CatalogIsValid(device: PhysicalDevice, passes: seq<RenderPass>, layout: Handle, pipelines: seq<Pipeline>,
                       mesh: BufferAllocation)
    requires |passes| == |pipelines| == PassCount
    requires forall d :: 0 <= d < PassCount ==> passes[d].info == RenderPassDescription(RenderFormats[d])
    requires forall d :: 0 <= d < PassCount ==>
               pipelines[d].info.renderPass == passes[d].handle && pipelines[d].info.layout == layout
    requires mesh.info.size == MeshBufferSize() && mesh.info.usage == MeshUsage
    ensures ValidGlobal(Global(device, passes, SetLayoutBindings, SetupDescriptorPool, layout, pipelines, mesh))
  {
  }

  /** The quad's buffer holds four 16-byte vertices. */
  lemma MeshBufferHoldsQuad()
    ensures MeshBufferSize() == 64
    ensures MeshBufferSize() == |Quad| * VertexBindingDescription().stride
  {
    VertexLayoutConsistent();
  }
}

=== FILE: render.dfy ===
/**
 * SequenceSetup and the SmartPreRender / SmartRender pair: the depth class a
 * frame renders at, the per-sequence state (command buffer, fence, descriptor
 * set, uniform buffer, cache and the tracked image layouts), and one frame
 * from cache validation to the download.
 */
module Render {
  import opened Wrappers
  import opened VkTypes
  import opened VulkanUtils
  import opened ShaderInterface
  import opened PipelineCatalog
  import opened LayoutTracking
  import opened FrameResources
  import opened FenceSync

  // ---------------------------------------------------------------------------
  // Depth class

  /** SmartPreRender's `Uniforms.Depth = bitdepth / 16`. */
  function DepthClass(bitdepth: nat): (r: nat)
    ensures r * 16 <= bitdepth < (r + 1) * 16
  {
    bitdepth / 16
  }

  /** `sizeof(PF_Pixel8)`, `sizeof(PF_Pixel16)`, `sizeof(PF_Pixel32)`: four channels of 1, 2 and 4 bytes. */
  const PixelSizes: seq<nat> := [4, 8, 16]

  /** Bytes per texel of each format the model knows. */
  function TexelSize(f: Format): nat {
    match f
    case UndefinedFormat => 0
    case R8G8B8A8Unorm => 4
    case R16G16B16A16Unorm => 8
    case R32G32B32A32Sfloat => 16
    case R32G32Sfloat => 8
  }

  /**
   * The host's depths 8, 16 and 32 give classes 0, 1 and 2, and every table
   * indexed by the class agrees: the host pixel size is the texel size of the
   * render format, which is the attachment format of the render pass.
   */
  lemma DepthClassSelectsConsistentTables()
    ensures DepthClass(8) == 0 && DepthClass(16) == 1 && DepthClass(32) == 2
    ensures |PixelSizes| == |RenderFormats| == PassCount
    ensures forall d :: 0 <= d < PassCount ==> PixelSizes[d] == TexelSize(RenderFormats[d])
    ensures forall d :: 0 <= d < PassCount ==> DepthToFormat(d) == Some(RenderFormats[d])
    ensures forall bitdepth: nat :: bitdepth >= 48 ==> DepthToFormat(DepthClass(bitdepth)).None?
  {
  }

  /**
   * `bufferRowLength = rowbytes / PixelSize`: the row pitch in texels.  A row
   * of that many texels never extends past `rowbytes`, and it covers the
   * image's width whenever the host row holds the width's pixels.
   */
  function RowLength(rowbytes: nat, d: nat): (r: nat)
    requires d < PassCount
    ensures r * PixelSizes[d] <= rowbytes < (r + 1) * PixelSizes[d]
    ensures forall width: nat :: width * PixelSizes[d] <= rowbytes ==> width <= r
  {
    match d
    case 0 => rowbytes / 4
    case 1 => rowbytes / 8
    case 2 => rowbytes / 16
  }

  /** `a <= b` carries over to multiples. */
  lemma {:induction false} MultiplyMonotone(a: nat, b: nat, c: nat)
    requires a <= b
    ensures c * a <= c * b
    decreases c
  {
    if c > 0 {
      MultiplyMonotone(a, b, c - 1);
      assert c * a == (c - 1) * a + a;
      assert c * b == (c - 1) * b + b;
    }
  }

  /**
   * The buffer region a copy of a `width x height` image touches, with rows
   * `RowLength` texels apart, lies inside the layer's `height * rowbytes`
   * bytes, and so inside the staging buffer.
   */
  lemma CopyRegionWithinLayer(l: Layer, d: nat)
    requires d < PassCount
    requires l.height > 0 && l.width * PixelSizes[d] <= l.rowbytes
    ensures var pitch := RowLength(l.rowbytes, d) * PixelSizes[d];
            (l.height - 1) * pitch + l.width * PixelSizes[d] <= LayerBytes(l)
  {
    var pitch := RowLength(l.rowbytes, d) * PixelSizes[d];
    MultiplyMonotone(pitch, l.rowbytes, l.height - 1);
    assert (l.height - 1) * pitch <= (l.height - 1) * l.rowbytes;
    assert LayerBytes(l) == (l.height - 1) * l.rowbytes + l.rowbytes;
  }

  /**
   * One past the last staging-buffer byte that `copyBufferToImage` or
   * `copyImageToBuffer` touches for layer `l`, with rows `rowLength` texels
   * apart and texels of depth class `d`.
   */
  function CopyExtent(l: Layer, rowLength: nat, d: nat): int
    requires d < PassCount
  {
    if l.height == 0 then 0 else (l.height - 1) * (rowLength * PixelSizes[d]) + l.width * PixelSizes[d]
  }

  // ---------------------------------------------------------------------------
  // Sampler

  /** The host's render quality setting. */
  datatype Quality = QualityLo | QualityHi | QualityOther(code: int)

  /** Low quality samples nearest, high quality linear; any other value keeps the default, nearest. */
  function SamplerFilter(q: Quality): (f: Filter)
    ensures f == Linear <==> q == QualityHi
  {
    match q
    case QualityLo => Nearest
    case QualityHi => Linear
    case QualityOther(_) => Nearest
  }

  // ---------------------------------------------------------------------------
  // SequenceSetup

  /** Binding 0's write at sequence setup: one uniform buffer. */
  const UniformWrite: DescriptorWrite := DescriptorWrite(0, 0, 1, UniformBufferDescriptor, None)

  /** Binding 1's write each frame: one combined image sampler, declared ShaderReadOnlyOptimal. */
  const SamplerWrite: DescriptorWrite := DescriptorWrite(1, 0, 1, CombinedImageSampler, Some(SampledLayout))

  lemma DescriptorWritesMatchLayout()
    ensures WriteMatchesLayout(UniformWrite, SetLayoutBindings)
    ensures WriteMatchesLayout(SamplerWrite, SetLayoutBindings)
    ensures SamplerWrite.imageLayout == Some(UploadCommands()[3].newLayout)
  {
    assert SetLayoutBindings[0].binding == UniformWrite.binding;
    assert SetLayoutBindings[1].binding == SamplerWrite.binding;
  }

  /** The driver's answers during SequenceSetup. */
  datatype SequenceOracle = SequenceOracle(
    handleOk: bool,
    commandBufferOk: bool,
    commandBuffer: Handle,
    fenceOk: bool,
    descriptorSetOk: bool,
    descriptorSet: Handle,
    uniform: AllocOracle)

  /** `SequenceParams`, with the descriptor set's written bindings and the images' tracked layouts. */
  datatype Sequence = Sequence(
    commandBuffer: Handle,
    fence: FenceState,
    descriptorSet: Handle,
    uniform: BufferAllocation,
    written: map<nat, DescriptorWrite>,
    cache: SequenceCache,
    layouts: State)

  /** Layouts of images nobody has used: Undefined, no pass open, nothing bound. */
  const InitialLayouts: State := State(Undefined, Undefined, None, None)

  const UniformUsage: set<BufferUsage> := {UniformBuffer}

  /**
   * What holds between frames: the fence is unsignalled, the cache is
   * consistent, no render pass is open, and every descriptor write made so far
   * (binding 0 at least) matches the set layout at its own binding.
   */
  predicate SequenceInvariant(s: Sequence) {
    && s.fence == Unsignalled
    && CacheConsistent(s.cache)
    && s.layouts.active.None?
    && 0 in s.written
    && s.uniform.info.size == UniformsSize()
    && WritesMatchLayout(s.written)
  }

  /** Each write sits at its own binding and matches the set layout there. */
  predicate WritesMatchLayout(written: map<nat, DescriptorWrite>) {
    forall b :: b in written ==> written[b].binding == b && WriteMatchesLayout(written[b], SetLayoutBindings)
  }

  /**
   * Allocates the command buffer, the fence (unsignalled), the descriptor set
   * and the 96-byte uniform buffer, and points binding 0 at it.  A failed
   * handle, command buffer, fence or set returns PF_Err_OUT_OF_MEMORY; a failed
   * uniform buffer makes `.value()` throw.
   */
  function SequenceSetup(props: MemoryProperties, o: SequenceOracle): (r: Result<Sequence, PluginError>)
    ensures r.Ok? ==> SequenceInvariant(r.value)
    ensures r.Ok? ==> && r.value.fence == Unsignalled && r.value.cache == FreshCache
                      && r.value.written == map[0 := UniformWrite]
                      && r.value.uniform.info.usage == UniformUsage
    ensures r.Ok? <==> && o.handleOk && o.commandBufferOk && o.fenceOk && o.descriptorSetOk
                       && AllocateBuffer(props, o.uniform, UniformsSize(), UniformUsage, HostMemory).Some?
    ensures !o.handleOk || !o.commandBufferOk || !o.fenceOk || !o.descriptorSetOk ==> r == Err(OutOfMemory)
    ensures r == Err(UncaughtBadOptionalAccess) <==>
              && o.handleOk && o.commandBufferOk && o.fenceOk && o.descriptorSetOk
              && AllocateBuffer(props, o.uniform, UniformsSize(), UniformUsage, HostMemory).None?
  {
    if !o.handleOk || !o.commandBufferOk || !o.fenceOk || !o.descriptorSetOk then Err(OutOfMemory)
    else
      match AllocateBuffer(props, o.uniform, UniformsSize(), UniformUsage, HostMemory)
      case None => Err(UncaughtBadOptionalAccess)
      case Some(uniform) =>
        DescriptorWritesMatchLayout();
        Ok(Sequence(o.commandBuffer, Unsignalled, o.descriptorSet, uniform, map[0 := UniformWrite],
                    FreshCache, InitialLayouts))
  }

  // ---------------------------------------------------------------------------
  // SmartRender

  /** What the host hands SmartRender: the depth from SmartPreRender, the quality and the checked-out layers. */
  datatype FrameInput = FrameInput(bitdepth: nat, quality: Quality, input: Option<Layer>, output: Option<Layer>)

  /** The driver's answers during one SmartRender. */
  datatype FrameOracle = FrameOracle(
    cache: CacheOracle,
    inputViewOk: bool,
    outputViewOk: bool,
    samplerOk: bool,
    framebufferOk: bool,
    stagingMapOk: bool,
    uniformMapOk: bool,
    beginOk: bool,
    endOk: bool,
    gpu: GpuFrame)

  /** What a rendered frame used and copied. */
  datatype FrameRecord = FrameRecord(
    format: Format,
    pass: RenderPass,
    pipeline: Pipeline,
    filter: Filter,
    commands: seq<Command>,
    inputRowLength: nat,
    outputRowLength: nat,
    uploadBytes: nat,
    uniformBytes: nat,
    downloadBytes: nat)

  datatype FrameOutcome = Skipped | Rendered(record: FrameRecord)

  /** The sequence state after the frame (also after a failure part-way) and how the frame ended. */
  datatype FrameResult = FrameResult(sequence: Sequence, status: Result<FrameOutcome, PluginError>)

  /** Layouts after the cache check: a newly created image starts Undefined, a kept one keeps its layout. */
  function LayoutsAfterCache(layouts: State, before: SequenceCache, after: SequenceCache): (r: State)
    ensures r.active == layouts.active && r.sampled == layouts.sampled
    ensures after.input.image != before.input.image ==> r.input == Undefined
    ensures after.output.image != before.output.image ==> r.output == Undefined
    ensures after.input.image == before.input.image ==> r.input == layouts.input
    ensures after.output.image == before.output.image ==> r.output == layouts.output
  {
    var withInput := if after.input.image != before.input.image then layouts.(input := Undefined) else layouts;
    if after.output.image != before.output.image then withInput.(output := Undefined) else withInput
  }

  /** The command sequence of one frame of depth class `d`. */
  function FrameCommandsFor(g: Global, d: nat): seq<Command>
    requires ValidGlobal(g) && d < PassCount
  {
    FrameCommands(g.passes[d].info)
  }

  /** The layers are present, the depth class has a format, and every reallocation the cache check needs succeeds. */
  predicate ReachesViews(g: Global, s: Sequence, f: FrameInput, o: FrameOracle)
  {
    && f.input.Some? && f.output.Some?
    && DepthClass(f.bitdepth) < PassCount
    && CacheAllocates(g.physicalDevice.memory, s.cache, RenderFormats[DepthClass(f.bitdepth)],
                      f.input.value, f.output.value, o.cache)
  }

  /**
   * A reallocation the cache check gets to fails: the staging buffer, or
   * (with a known depth class) the input image, or (after the input view)
   * the output image.  Each makes `.value()` throw.
   */
  predicate AllocationFails(g: Global, s: Sequence, f: FrameInput, o: FrameOracle)
    requires f.input.Some? && f.output.Some?
  {
    var props := g.physicalDevice.memory;
    var d := DepthClass(f.bitdepth);
    || !StagingAllocates(props, s.cache, RequiredStagingSize(f.input.value, f.output.value), o.cache.staging)
    || (&& d < PassCount
        && (|| !ImageAllocates(props, s.cache.input, InputDescription(RenderFormats[d], f.input.value), o.cache.input)
            || (&& o.inputViewOk
                && !ImageAllocates(props, s.cache.output, OutputDescription(RenderFormats[d], f.output.value), o.cache.output))))
  }

  /** The staging check passes and the depth class has no entry in `DepthToFormat`'s table: `.at` throws. */
  predicate DepthOutOfRange(g: Global, s: Sequence, f: FrameInput, o: FrameOracle)
    requires f.input.Some? && f.output.Some?
  {
    && StagingAllocates(g.physicalDevice.memory, s.cache, RequiredStagingSize(f.input.value, f.output.value), o.cache.staging)
    && DepthClass(f.bitdepth) >= PassCount
  }

  /** The input image is in place and its view fails: PF_Err_INTERNAL_STRUCT_DAMAGED. */
  predicate InputViewFails(g: Global, s: Sequence, f: FrameInput, o: FrameOracle)
    requires f.input.Some? && f.output.Some?
  {
    var props := g.physicalDevice.memory;
    var d := DepthClass(f.bitdepth);
    && StagingAllocates(props, s.cache, RequiredStagingSize(f.input.value, f.output.value), o.cache.staging)
    && d < PassCount
    && ImageAllocates(props, s.cache.input, InputDescription(RenderFormats[d], f.input.value), o.cache.input)
    && !o.inputViewOk
  }

  /** Every call after the cache check succeeds: views, sampler, framebuffer, maps, recording and the submit. */
  predicate DrawCallsSucceed(o: FrameOracle) {
    && o.outputViewOk && o.samplerOk && o.framebufferOk && o.stagingMapOk && o.uniformMapOk
    && o.beginOk && o.endOk && o.gpu.submitOk
  }

  /** The cache as changed so far, and the render format when the check got through. */
  datatype CacheCheck = CacheCheck(cache: SequenceCache, status: Result<Format, PluginError>)

  /**
   * SmartRender up to the input view and the output image: the staging check,
   * the format of the depth class, the input image and its view, the output
   * image.  It gets through exactly when the frame reaches the views, and then
   * leaves the cache ValidateCache describes.
   */
  function CheckCache(g: Global, s: Sequence, f: FrameInput, o: FrameOracle): (r: CacheCheck)
    requires ValidGlobal(g) && f.input.Some? && f.output.Some?
    ensures CacheConsistent(s.cache) ==> CacheConsistent(r.cache)
    ensures r.status.Ok? <==> ReachesViews(g, s, f, o) && o.inputViewOk
    ensures r.status.Ok? ==>
              && r.status.value == RenderFormats[DepthClass(f.bitdepth)]
              && r.cache == ValidateCache(g.physicalDevice.memory, s.cache, r.status.value,
                                          f.input.value, f.output.value, o.cache)
    ensures r.status == Err(UncaughtBadOptionalAccess) <==> AllocationFails(g, s, f, o)
    ensures r.status == Err(UncaughtOutOfRange) <==> DepthOutOfRange(g, s, f, o)
    ensures r.status == Err(InternalStructDamaged) <==> InputViewFails(g, s, f, o)
  {
    var input, output := f.input.value, f.output.value;
    var props := g.physicalDevice.memory;
    var required := RequiredStagingSize(input, output);
    if !StagingAllocates(props, s.cache, required, o.cache.staging) then CacheCheck(s.cache, Err(UncaughtBadOptionalAccess))
    else
      var c1 := ValidateStaging(props, s.cache, required, o.cache.staging);
      match DepthToFormat(DepthClass(f.bitdepth))
      case None => CacheCheck(c1, Err(UncaughtOutOfRange))
      case Some(format) =>
        var inputInfo := InputDescription(format, input);
        if !ImageAllocates(props, c1.input, inputInfo, o.cache.input) then CacheCheck(c1, Err(UncaughtBadOptionalAccess))
        else
          var c2 := c1.(input := ValidateImage(props, c1.input, inputInfo, o.cache.input));
          if !o.inputViewOk then CacheCheck(c2, Err(InternalStructDamaged))
          else
            var outputInfo := OutputDescription(format, output);
            if !ImageAllocates(props, c2.output, outputInfo, o.cache.output) then
              CacheCheck(c2, Err(UncaughtBadOptionalAccess))
            else
              CacheCheck(c2.(output := ValidateImage(props, c2.output, outputInfo, o.cache.output)), Ok(format))
  }

  /**
   * What a cache check leaves behind, failed or not, as SmartRender leaves
   * it: a staging allocation that throws leaves the cache as it was;
   * otherwise the staging check's buffer and size are kept, the input slot
   * is the checked one once the input image has been allocated and as it was
   * before that, and the output slot changes only when the check gets
   * through.
   */
  lemma CheckCacheKeepsProgress(g: Global, s: Sequence, f: FrameInput, o: FrameOracle)
    requires ValidGlobal(g) && f.input.Some? && f.output.Some?
    ensures var r := CheckCache(g, s, f, o);
            var props := g.physicalDevice.memory;
            var required := RequiredStagingSize(f.input.value, f.output.value);
            var d := DepthClass(f.bitdepth);
            && (!StagingAllocates(props, s.cache, required, o.cache.staging) ==> r.cache == s.cache)
            && (StagingAllocates(props, s.cache, required, o.cache.staging) ==>
                  var c1 := ValidateStaging(props, s.cache, required, o.cache.staging);
                  && r.cache.staging == c1.staging && r.cache.stagingSize == c1.stagingSize
                  && (d >= PassCount
                      || !ImageAllocates(props, s.cache.input, InputDescription(RenderFormats[d], f.input.value),
                                         o.cache.input)
                      ==> r.cache.input == s.cache.input)
                  && (d < PassCount
                      && ImageAllocates(props, s.cache.input, InputDescription(RenderFormats[d], f.input.value),
                                        o.cache.input)
                      ==> r.cache.input == ValidateImage(props, s.cache.input,
                                                         InputDescription(RenderFormats[d], f.input.value),
                                                         o.cache.input)))
            && (r.status.Err? ==> r.cache.output == s.cache.output)
  {
  }

  /**
   * Recording, submit, wait with the unbounded timeout, reset and download,
   * for depth class `d` from the tracked layouts of `s`.  With an unsignalled
   * fence and no pass open, the frame completes exactly when the submit is
   * accepted, the fence comes back unsignalled, and the layouts are those
   * the recorded commands leave.
   */
  function SubmitFrame(g: Global, s: Sequence, d: nat, f: FrameInput, o: FrameOracle): (r: FrameResult)
    requires ValidGlobal(g) && d < PassCount && f.input.Some? && f.output.Some?
    ensures r.sequence == s.(fence := r.sequence.fence, layouts := r.sequence.layouts)
    ensures s.fence == Unsignalled ==> r.sequence.fence == Unsignalled
    ensures r.status.Ok? ==> r.status.value.Rendered?
    ensures r.status.Ok? ==>
              var rec := r.status.value.record;
              && rec.format == RenderFormats[d]
              && rec.pass == g.passes[d] && rec.pipeline == g.pipelines[d]
              && rec.commands == FrameCommands(RenderPassDescription(RenderFormats[d]))
              && rec.filter == SamplerFilter(f.quality)
              && rec.inputRowLength == RowLength(f.input.value.rowbytes, d)
              && rec.outputRowLength == RowLength(f.output.value.rowbytes, d)
              && rec.uploadBytes == LayerBytes(f.input.value) && rec.downloadBytes == LayerBytes(f.output.value)
              && rec.uniformBytes == UniformsSize()
    ensures s.layouts.active.None? ==> r.sequence.layouts.active.None?
    ensures !o.gpu.submitOk ==> r.sequence.layouts == s.layouts
    ensures r.status.Err? ==> r.status.error == InternalStructDamaged
    ensures s.fence == Unsignalled && s.layouts.active.None? ==>
              && (r.status.Ok? <==> o.gpu.submitOk)
              && (r.status.Ok? ==> Replay(s.layouts, r.status.value.record.commands) == Some(r.sequence.layouts)
                                   && FrameEndState(r.sequence.layouts))
  {
    var cmds := FrameCommandsFor(g, d);
    var sync := SubmitAndWait(s.fence, o.gpu, IntendedFenceTimeout);
    var layouts :=
      if o.gpu.submitOk && s.layouts.active.None? then
        FrameLayoutsMatch(s.layouts, d);
        Replay(s.layouts, cmds).value
      else s.layouts;
    var s1 := s.(fence := sync.fence, layouts := layouts);
    if sync.status != FrameDone then FrameResult(s1, Err(InternalStructDamaged))
    else
      var input, output := f.input.value, f.output.value;
      var record := FrameRecord(RenderFormats[d], g.passes[d], g.pipelines[d], SamplerFilter(f.quality), cmds,
                                RowLength(input.rowbytes, d), RowLength(output.rowbytes, d),
                                LayerBytes(input), UniformsSize(), LayerBytes(output));
      FrameResult(s1, Ok(Rendered(record)))
  }

  /**
   * SmartRender after the cache check: output view, sampler, binding 1
   * write, framebuffer, staging map and upload, uniform upload, begin and end
   * of recording, then the submit.  Only the descriptor writes, the fence and
   * the layouts change.
   */
  function DrawFrame(g: Global, s: Sequence, d: nat, f: FrameInput, o: FrameOracle): (r: FrameResult)
    requires ValidGlobal(g) && d < PassCount && f.input.Some? && f.output.Some?
    ensures r.sequence == s.(written := r.sequence.written, fence := r.sequence.fence, layouts := r.sequence.layouts)
    ensures r.sequence.written == s.written || r.sequence.written == s.written[1 := SamplerWrite]
    ensures WritesMatchLayout(s.written) ==> WritesMatchLayout(r.sequence.written)
    ensures r.status.Ok? ==> r.sequence.written == s.written[1 := SamplerWrite]
    ensures s.fence == Unsignalled ==> r.sequence.fence == Unsignalled
    ensures s.layouts.active.None? ==> r.sequence.layouts.active.None?
    ensures r.status.Ok? ==> r.status.value.Rendered?
    ensures r.status.Ok? ==>
              var rec := r.status.value.record;
              && rec.format == RenderFormats[d]
              && rec.pass == g.passes[d] && rec.pipeline == g.pipelines[d]
              && rec.commands == FrameCommands(RenderPassDescription(RenderFormats[d]))
              && rec.filter == SamplerFilter(f.quality)
              && rec.inputRowLength == RowLength(f.input.value.rowbytes, d)
              && rec.outputRowLength == RowLength(f.output.value.rowbytes, d)
              && rec.uploadBytes == LayerBytes(f.input.value) && rec.downloadBytes == LayerBytes(f.output.value)
              && rec.uniformBytes == UniformsSize()
    ensures r.status.Ok? && s.fence == Unsignalled && s.layouts.active.None? ==>
              && Replay(s.layouts, r.status.value.record.commands) == Some(r.sequence.layouts)
              && FrameEndState(r.sequence.layouts)
    ensures s.fence == Unsignalled && s.layouts.active.None? ==> (r.status.Ok? <==> DrawCallsSucceed(o))
    ensures r.status.Err? ==> r.status.error == InternalStructDamaged
    ensures !DrawCallsSucceed(o) ==> r.sequence.layouts == s.layouts
  {
    if !o.outputViewOk || !o.samplerOk then FrameResult(s, Err(InternalStructDamaged))
    else
      DescriptorWritesMatchLayout();
      var s1 := s.(written := s.written[1 := SamplerWrite]);
      if !o.framebufferOk || !o.stagingMapOk || !o.uniformMapOk || !o.beginOk || !o.endOk then
        FrameResult(s1, Err(InternalStructDamaged))
      else
        SubmitFrame(g, s1, d, f, o)
  }

  /**
   * One SmartRender, in the source's order: the cache check (staging, format
   * and pixel size by depth class, input image and view, output image), then
   * the drawing and the submit.  A failing call returns
   * PF_Err_INTERNAL_STRUCT_DAMAGED with everything changed so far kept; a
   * failed reallocation throws from `.value()`; a depth class of 3 or more
   * throws from `.at`.
   *
   * A rendered frame used the pass, pipeline and format of its depth class,
   * recorded commands whose every layout expectation holds, copied no more
   * than the staging and uniform buffers hold, sampled with the quality's
   * filter, and left the sequence ready for the next frame.
   */
  function RenderFrame(g: Global, s: Sequence, f: FrameInput, o: FrameOracle): (r: FrameResult)
    requires ValidGlobal(g)
    ensures f.input.None? || f.output.None? ==> r == FrameResult(s, Ok(Skipped))
    ensures r.status.Err? ==> r.status.error != OutOfMemory
    ensures SequenceInvariant(s) ==> SequenceInvariant(r.sequence)
    ensures r.sequence.descriptorSet == s.descriptorSet && r.sequence.uniform == s.uniform
    ensures r.status.Ok? && r.status.value.Rendered? ==>
              var rec := r.status.value.record;
              var d := DepthClass(f.bitdepth);
              && ReachesViews(g, s, f, o)
              && rec.format == RenderFormats[d]
              && rec.pass == g.passes[d] && rec.pass.info.format == rec.format
              && rec.pipeline == g.pipelines[d] && rec.pipeline.info.renderPass == rec.pass.handle
              && rec.uploadBytes <= r.sequence.cache.stagingSize
              && rec.downloadBytes <= r.sequence.cache.stagingSize
              && rec.filter == SamplerFilter(f.quality)
              && rec.inputRowLength == RowLength(f.input.value.rowbytes, d)
              && rec.outputRowLength == RowLength(f.output.value.rowbytes, d)
              && 1 in r.sequence.written && r.sequence.written[1] == SamplerWrite
              && r.sequence.cache == ValidateCache(g.physicalDevice.memory, s.cache, rec.format,
                                                   f.input.value, f.output.value, o.cache)
    ensures r.status.Ok? && r.status.value.Rendered? && SequenceInvariant(s) ==>
              var rec := r.status.value.record;
              && Replay(LayoutsAfterCache(s.layouts, s.cache, r.sequence.cache), rec.commands).Some?
              && FrameEndState(r.sequence.layouts)
              && rec.uniformBytes <= r.sequence.uniform.info.size
  {
    if f.input.None? || f.output.None? then FrameResult(s, Ok(Skipped))
    else
      var checked := CheckCache(g, s, f, o);
      var s1 := s.(cache := checked.cache, layouts := LayoutsAfterCache(s.layouts, s.cache, checked.cache));
      if checked.status.Err? then FrameResult(s1, Err(checked.status.error))
      else DrawFrame(g, s1, DepthClass(f.bitdepth), f, o)
  }

  /**
   * How a frame with both layers ends.  A failed reallocation, and only that,
   * throws from `.value()`; a depth class without a format, and only that,
   * throws from `.at`; every other failure is PF_Err_INTERNAL_STRUCT_DAMAGED.
   * Between frames, the frame renders exactly when it gets through the cache
   * check to the views, the input view succeeds, and every later call
   * succeeds.  A frame that fails before the submit leaves the
   * tracked layouts as the cache check left them: Undefined for a newly
   * created image, unchanged otherwise.
   */
  lemma RenderFrameOutcome(g: Global, s: Sequence, f: FrameInput, o: FrameOracle)
    requires ValidGlobal(g) && f.input.Some? && f.output.Some?
    ensures var r := RenderFrame(g, s, f, o);
            && r.sequence.cache == CheckCache(g, s, f, o).cache
            && (SequenceInvariant(s) ==> (r.status.Ok? <==> ReachesViews(g, s, f, o) && o.inputViewOk && DrawCallsSucceed(o)))
            && (!DrawCallsSucceed(o) ==> r.sequence.layouts == LayoutsAfterCache(s.layouts, s.cache, r.sequence.cache))
            && (r.status == Err(UncaughtBadOptionalAccess) <==> AllocationFails(g, s, f, o))
            && (r.status == Err(UncaughtOutOfRange) <==> DepthOutOfRange(g, s, f, o))
            && (SequenceInvariant(s) ==>
                  (r.status == Err(InternalStructDamaged) <==>
                     InputViewFails(g, s, f, o) || (ReachesViews(g, s, f, o) && o.inputViewOk && !DrawCallsSucceed(o))))
  {
    var checked := CheckCache(g, s, f, o);
    if checked.status.Ok? {
      var s1 := s.(cache := checked.cache, layouts := LayoutsAfterCache(s.layouts, s.cache, checked.cache));
      var r := DrawFrame(g, s1, DepthClass(f.bitdepth), f, o);
      assert RenderFrame(g, s, f, o) == r;
    }
  }

  /**
   * The GPU copies of a rendered frame stay inside the staging buffer: with
   * rows `rowbytes / PixelSize` texels apart, the region `copyBufferToImage`
   * reads and the region `copyImageToBuffer` writes end within the staging
   * size, whenever the host's rows hold the layer's width.
   */
  lemma RenderedCopiesFitStaging(g: Global, s: Sequence, f: FrameInput, o: FrameOracle)
    requires ValidGlobal(g)
    ensures var r := RenderFrame(g, s, f, o);
            r.status.Ok? && r.status.value.Rendered? ==>
              var rec := r.status.value.record;
              var d := DepthClass(f.bitdepth);
              && f.input.Some? && f.output.Some? && d < PassCount
              && (f.input.value.width * PixelSizes[d] <= f.input.value.rowbytes ==>
                    CopyExtent(f.input.value, rec.inputRowLength, d) <= r.sequence.cache.stagingSize)
              && (f.output.value.width * PixelSizes[d] <= f.output.value.rowbytes ==>
                    CopyExtent(f.output.value, rec.outputRowLength, d) <= r.sequence.cache.stagingSize)
  {
    var r := RenderFrame(g, s, f, o);
    if r.status.Ok? && r.status.value.Rendered? {
      var d := DepthClass(f.bitdepth);
      CopyFitsWhenLayerFits(f.input.value, d, r.sequence.cache.stagingSize);
      CopyFitsWhenLayerFits(f.output.value, d, r.sequence.cache.stagingSize);
    }
  }

  /** A copy with the frame's row pitch stays within any buffer that holds the whole layer. */
  lemma CopyFitsWhenLayerFits(l: Layer, d: nat, size: nat)
    requires d < PassCount && LayerBytes(l) <= size
    ensures l.width * PixelSizes[d] <= l.rowbytes ==> CopyExtent(l, RowLength(l.rowbytes, d), d) <= size
  {
    if l.height > 0 && l.width * PixelSizes[d] <= l.rowbytes {
      CopyRegionWithinLayer(l, d);
    }
  }

  /**
   * After a rendered frame, the same frame again creates no buffer or image,
   * whatever the driver would answer: the cache comes out unchanged, and it
   * gets past the cache check to the views.
   */
  lemma RepeatedFrameAllocatesNothing(g: Global, s: Sequence, f: FrameInput, o1: FrameOracle, o2: FrameOracle)
    requires ValidGlobal(g)
    requires RenderFrame(g, s, f, o1).status.Ok? && RenderFrame(g, s, f, o1).status.value.Rendered?
    ensures var s1 := RenderFrame(g, s, f, o1).sequence;
            && ReachesViews(g, s1, f, o2)
            && RenderFrame(g, s1, f, o2).sequence.cache == s1.cache
  {
    var r1 := RenderFrame(g, s, f, o1);
    var format := r1.status.value.record.format;
    var props := g.physicalDevice.memory;
    var input, output := f.input.value, f.output.value;
    var c1 := r1.sequence.cache;
    RepeatedFrameReusesCache(props, s.cache, format, input, output, o1.cache, o2.cache);
    StagingSettles(props, s.cache, RequiredStagingSize(input, output), o1.cache.staging, o2.cache.staging);
    var cs := ValidateStaging(props, c1, RequiredStagingSize(input, output), o2.cache.staging);
    assert cs == c1;
    ValidateImageIdempotent(props, ValidateStaging(props, s.cache, RequiredStagingSize(input, output), o1.cache.staging).input,
                            InputDescription(format, input), o1.cache.input, o2.cache.input);
    ValidateImageIdempotent(props, ValidateStaging(props, s.cache, RequiredStagingSize(input, output), o1.cache.staging).output,
                            OutputDescription(format, output), o1.cache.output, o2.cache.output);
  }
}

=== FILE: shader_interface.dfy ===
/**
 * The data the plug-in shares with its shaders and host: the `Vertex`
 * layout and its attribute descriptions, the `Quad` mesh, the std140
 * `Uniforms` block, the parameter numbering and the 16-bit white level.
 */
module ShaderInterface {
  import opened VkTypes

  // ---------------------------------------------------------------------------
  // Struct layout

  /** The alignments that occur in these layouts. */
  datatype Alignment = Align4 | Align8 | Align16

  function AlignBytes(a: Alignment): (r: nat)
    ensures r > 0
  {
    match a
    case Align4 => 4
    case Align8 => 8
    case Align16 => 16
  }

  /** A struct member: its byte size and its alignment (`alignas` in C++, base alignment in std140). */
  datatype Field = Field(size: nat, align: Alignment)

  /** `x` is a multiple of the alignment. */
  predicate Aligned(x: nat, a: Alignment) {
    match a
    case Align4 => x % 4 == 0
    case Align8 => x % 8 == 0
    case Align16 => x % 16 == 0
  }

  function RoundUp4(x: nat): (r: nat) ensures r >= x && r % 4 == 0 && r - x < 4 { 4 * ((x + 3) / 4) }
  function RoundUp8(x: nat): (r: nat) ensures r >= x && r % 8 == 0 && r - x < 8 { 8 * ((x + 7) / 8) }
  function RoundUp16(x: nat): (r: nat) ensures r >= x && r % 16 == 0 && r - x < 16 { 16 * ((x + 15) / 16) }

  /** The least multiple of the alignment that is at least `x`. */
  function RoundUp(x: nat, a: Alignment): (r: nat)
    ensures r >= x && Aligned(r, a) && r - x < AlignBytes(a)
  {
    match a
    case Align4 => RoundUp4(x)
    case Align8 => RoundUp8(x)
    case Align16 => RoundUp16(x)
  }

  /**
   * Member `k` starts after member `k - 1` ends, with less padding between
   * them than its own alignment.
   */
  predicate PlacedAfterPrevious(fields: seq<Field>, offsets: seq<nat>, k: nat)
    requires 0 < k < |fields| == |offsets|
  {
    var previousEnd := offsets[k - 1] + fields[k - 1].size;
    previousEnd <= offsets[k] && offsets[k] - previousEnd < AlignBytes(fields[k].align)
  }

  /**
   * Offsets of consecutive members placed from `start`: each at the first
   * suitably aligned byte after the previous member.
   */
  function FieldOffsets(fields: seq<Field>, start: nat): (offsets: seq<nat>)
    ensures |offsets| == |fields|
    decreases |fields|
  {
    if |fields| == 0 then []
    else
      var first := RoundUp(start, fields[0].align);
      [first] + FieldOffsets(fields[1..], first + fields[0].size)
  }

  /** Every member starts on a multiple of its alignment. */
  predicate AllAligned(fields: seq<Field>, offsets: seq<nat>)
    requires |fields| == |offsets|
  {
    forall k :: 0 <= k < |fields| ==> Aligned(offsets[k], fields[k].align)
  }

  /** Every member after the first starts after its predecessor ends, padded by less than its alignment. */
  predicate AllPlaced(fields: seq<Field>, offsets: seq<nat>)
    requires |fields| == |offsets|
  {
    forall k :: 0 < k < |fields| ==> PlacedAfterPrevious(fields, offsets, k)
  }

  /**
   * Every member is aligned, the first starts at or after `start`, and each
   * later member starts after its predecessor ends, with less padding than
   * its own alignment.
   */
  lemma {:induction false} FieldOffsetsPlacement(fields: seq<Field>, start: nat)
    ensures var offsets := FieldOffsets(fields, start);
            && AllAligned(fields, offsets)
            && (|fields| > 0 ==> start <= offsets[0] && offsets[0] - start < AlignBytes(fields[0].align))
            && AllPlaced(fields, offsets)
    decreases |fields|
  {
    if |fields| > 0 {
      var first := RoundUp(start, fields[0].align);
      FieldOffsetsPlacement(fields[1..], first + fields[0].size);
      PlacementExtends(fields, first, FieldOffsets(fields[1..], first + fields[0].size));
    }
  }

  /** Placing the first member at an aligned `first` in front of a placed rest gives a placed struct. */
  lemma PlacementExtends(fields: seq<Field>, first: nat, rest: seq<nat>)
    requires |fields| > 0 && |rest| == |fields| - 1
    requires Aligned(first, fields[0].align)
    requires |rest| > 0 ==> first + fields[0].size <= rest[0] && rest[0] - (first + fields[0].size) < AlignBytes(fields[1].align)
    requires AllAligned(fields[1..], rest) && AllPlaced(fields[1..], rest)
    ensures AllAligned(fields, [first] + rest) && AllPlaced(fields, [first] + rest)
  {
    var offsets := [first] + rest;
    forall k | 0 < k < |fields|
      ensures Aligned(offsets[k], fields[k].align) && PlacedAfterPrevious(fields, offsets, k)
    {
      assert offsets[k] == rest[k - 1] && fields[k] == fields[1..][k - 1];
      assert Aligned(rest[k - 1], fields[1..][k - 1].align);
      if k > 1 {
        assert PlacedAfterPrevious(fields[1..], rest, k - 1);
      }
    }
  }

  /** The strictest alignment among the members (4 for an empty struct). */
  function MaxAlign(fields: seq<Field>): (r: Alignment)
    ensures forall k :: 0 <= k < |fields| ==> AlignBytes(fields[k].align) <= AlignBytes(r)
  {
    if |fields| == 0 then Align4
    else
      var rest := MaxAlign(fields[1..]);
      if AlignBytes(fields[0].align) > AlignBytes(rest) then fields[0].align else rest
  }

  /** `sizeof` of a struct: the end of its last member rounded up to its strictest alignment. */
  function StructSize(fields: seq<Field>): nat
  {
    var offsets := FieldOffsets(fields, 0);
    var end := if |fields| == 0 then 0 else offsets[|fields| - 1] + fields[|fields| - 1].size;
    RoundUp(end, MaxAlign(fields))
  }

  // ---------------------------------------------------------------------------
  // Uniforms

  /** The GLSL types of the uniform block members. */
  datatype GlslType = GlslUint | GlslVec2 | GlslVec4 | GlslMat4

  /**
   * Size and base alignment under std140 (section 7.6.2.2 of the OpenGL 4.6
   * core specification): scalars 4, vec2 8, vec4 16, and a column-major
   * mat4 is an array of four vec4 columns with stride 16.
   */
  function Std140Field(t: GlslType): Field {
    match t
    case GlslUint => Field(4, Align4)
    case GlslVec2 => Field(8, Align8)
    case GlslVec4 => Field(16, Align16)
    case GlslMat4 => Field(4 * 16, Align16)
  }

  function Std140Block(members: seq<GlslType>): (fields: seq<Field>)
    ensures |fields| == |members|
    ensures forall k :: 0 <= k < |members| ==> fields[k] == Std140Field(members[k])
  {
    seq(|members|, k requires 0 <= k < |members| => Std140Field(members[k]))
  }

  /** The shader's block: `uint Depth; mat4 Transform; vec4 ColorFactor;`. */
  const UniformsGlsl: seq<GlslType> := [GlslUint, GlslMat4, GlslVec4]

  /** The C++ struct: `alignas(4) u32 Depth; alignas(16) f32mat4 Transform; alignas(16) f32vec4 ColorFactor;`. */
  const UniformsCpp: seq<Field> := [Field(4, Align4), Field(64, Align16), Field(16, Align16)]

  /** `sizeof(RenderParams::Uniforms)`: the size of the per-sequence uniform buffer. */
  function UniformsSize(): nat {
    StructSize(UniformsCpp)
  }

  /**
   * The C++ struct lays its members out exactly where std140 puts them:
   * Depth at 0, Transform at 16, ColorFactor at 80, 96 bytes in all.
   */
  lemma UniformsFollowStd140()
    ensures FieldOffsets(UniformsCpp, 0) == FieldOffsets(Std140Block(UniformsGlsl), 0) == [0, 16, 80]
    ensures UniformsSize() == 96
  {
    assert Std140Block(UniformsGlsl) == UniformsCpp;
    UniformsOffsets();
    assert MaxAlign(UniformsCpp) == Align16;
    assert RoundUp16(96) == 96 by { assert (96 + 15) / 16 == 6; }
  }

  lemma UniformsOffsets()
    ensures FieldOffsets(UniformsCpp, 0) == [0, 16, 80]
  {
    var depth, transform, color := Field(4, Align4), Field(64, Align16), Field(16, Align16);
    assert FieldOffsets([], 96) == [];
    assert RoundUp(80, Align16) == 80 by { assert (80 + 15) / 16 == 5; }
    FieldOffsetsCons(color, [], 80);
    assert [color] + [] == [color];
    var last := FieldOffsets([color], 80);
    assert last == [80];
    assert RoundUp(4, Align16) == 16 by { assert (4 + 15) / 16 == 1; }
    FieldOffsetsCons(transform, [color], 4);
    assert [transform] + [color] == [transform, color];
    var tail := FieldOffsets([transform, color], 4);
    assert tail == [16] + last;
    assert RoundUp(0, Align4) == 0;
    FieldOffsetsCons(depth, [transform, color], 0);
    assert [depth] + [transform, color] == UniformsCpp;
    assert FieldOffsets(UniformsCpp, 0) == [0] + tail;
  }

  /** One unfolding of FieldOffsets on a list written as its head and tail. */
  lemma {:induction false} FieldOffsetsCons(f: Field, rest: seq<Field>, start: nat)
    ensures FieldOffsets([f] + rest, start)
         == [RoundUp(start, f.align)] + FieldOffsets(rest, RoundUp(start, f.align) + f.size)
  {
    assert ([f] + rest)[1..] == rest;
  }

  // ---------------------------------------------------------------------------
  // Vertex and Quad

  /** `alignas(8) f32vec2 Position; alignas(8) f32vec2 UV;` */
  const VertexCpp: seq<Field> := [Field(8, Align8), Field(8, Align8)]

  /** Byte size of VK_FORMAT_R32G32_SFLOAT, the format of both vertex attributes. */
  const AttributeFormatSize: nat := 8

  datatype VertexAttribute = VertexAttribute(binding: nat, location: nat, format: Format, offset: nat)

  datatype VertexBinding = VertexBinding(binding: nat, stride: nat)

  /** `Vertex::BindingDescription()`: binding 0, stride `sizeof(Vertex)`, per-vertex rate. */
  function VertexBindingDescription(): VertexBinding {
    VertexBinding(0, StructSize(VertexCpp))
  }

  /** `Vertex::AttributeDescription()`: Position at location 0, UV at location 1, at their offsetof. */
  function VertexAttributes(): (r: seq<VertexAttribute>)
    ensures |r| == 2
    ensures forall k :: 0 <= k < |r| ==>
              r[k].binding == VertexBindingDescription().binding && r[k].location == k
              && r[k].format == R32G32Sfloat
  {
    var offsets := FieldOffsets(VertexCpp, 0);
    [VertexAttribute(0, 0, R32G32Sfloat, offsets[0]), VertexAttribute(0, 1, R32G32Sfloat, offsets[1])]
  }

  /** Stride 16 with UV at offset 8; both attributes lie inside one vertex and do not overlap. */
  lemma VertexLayoutConsistent()
    ensures VertexBindingDescription().stride == 16
    ensures VertexAttributes()[0].offset == 0 && VertexAttributes()[1].offset == 8
    ensures forall a :: a in VertexAttributes() ==>
              a.binding == VertexBindingDescription().binding
              && a.offset + AttributeFormatSize <= VertexBindingDescription().stride
    ensures VertexAttributes()[0].offset + AttributeFormatSize <= VertexAttributes()[1].offset
  {
    var v := Field(8, Align8);
    assert VertexCpp[1..] == [v];
    assert RoundUp8(8) == 8 by { assert (8 + 7) / 8 == 1; }
    assert FieldOffsets([v], 8) == [8];
    assert VertexCpp == [v, v] && VertexCpp[0] == v;
    assert RoundUp(0, Align8) == 0 by { assert RoundUp8(0) == 0; }
    assert FieldOffsets(VertexCpp, 0) == [0] + FieldOffsets([v], 8);
    assert MaxAlign([v]) == Align8;
    assert MaxAlign(VertexCpp) == Align8;
    assert RoundUp8(16) == 16 by { assert (16 + 7) / 8 == 2; }
  }

  datatype Vec2 = Vec2(x: real, y: real)

  datatype Vertex = Vertex(position: Vec2, uv: Vec2)

  /** The triangle-strip quad covering clip space. */
  const Quad: seq<Vertex> := [
    Vertex(Vec2(1.0, -1.0), Vec2(1.0, 0.0)),
    Vertex(Vec2(1.0, 1.0), Vec2(1.0, 1.0)),
    Vertex(Vec2(-1.0, -1.0), Vec2(0.0, 0.0)),
    Vertex(Vec2(-1.0, 1.0), Vec2(0.0, 1.0))
  ]

  /** Clip space [-1, 1] mapped onto texture space [0, 1]. */
  function ClipToUv(p: Vec2): Vec2 {
    Vec2((p.x + 1.0) / 2.0, (p.y + 1.0) / 2.0)
  }

  /** Four vertices, one on each corner of clip space, each with the UV of its position. */
  lemma QuadCoversClipSpace()
    ensures |Quad| == 4
    ensures forall v :: v in Quad ==> v.uv == ClipToUv(v.position)
    ensures forall x: real, y: real :: (x == 1.0 || x == -1.0) && (y == 1.0 || y == -1.0) ==>
              exists k :: 0 <= k < |Quad| && Quad[k].position == Vec2(x, y)
    ensures forall i, j :: 0 <= i < j < |Quad| ==> Quad[i].position != Quad[j].position
  {
    forall x: real, y: real | (x == 1.0 || x == -1.0) && (y == 1.0 || y == -1.0)
      ensures exists k :: 0 <= k < |Quad| && Quad[k].position == Vec2(x, y)
    {
      if x == 1.0 && y == -1.0 { assert Quad[0].position == Vec2(x, y); }
      else if x == 1.0 { assert Quad[1].position == Vec2(x, y); }
      else if y == -1.0 { assert Quad[2].position == Vec2(x, y); }
      else { assert Quad[3].position == Vec2(x, y); }
    }
  }

  /** Byte size of the mesh buffer: `Quad.size() * sizeof(Vertex)`. */
  function MeshBufferSize(): nat {
    |Quad| * StructSize(VertexCpp)
  }

  // ---------------------------------------------------------------------------
  // Parameters

  /** The effect's parameters in declaration order. */
  datatype ParamId = Input | Translate | Rotation | ScaleX | ScaleY | FactorR | FactorG | FactorB | FactorA

  const ParamCount: nat := 9

  const AllParams: seq<ParamId> := [Input, Translate, Rotation, ScaleX, ScaleY, FactorR, FactorG, FactorB, FactorA]

  function ParamIndex(p: ParamId): (r: nat)
    ensures r < ParamCount
  {
    match p
    case Input => 0
    case Translate => 1
    case Rotation => 2
    case ScaleX => 3
    case ScaleY => 4
    case FactorR => 5
    case FactorG => 6
    case FactorB => 7
    case FactorA => 8
  }

  /** The checkout id `Input + COUNT` used for the first layer checkout. */
  function FullLayerCheckoutId(): nat {
    ParamIndex(Input) + ParamCount
  }

  /**
   * Parameters are numbered 0 to 8 without gaps or repeats, and the extra
   * checkout id lies outside that range.
   */
  lemma ParamNumbering()
    ensures forall p, q :: ParamIndex(p) == ParamIndex(q) ==> p == q
    ensures |AllParams| == ParamCount
    ensures forall i :: 0 <= i < |AllParams| ==> ParamIndex(AllParams[i]) == i
    ensures forall p :: ParamIndex(p) != FullLayerCheckoutId()
  {
  }

  // ---------------------------------------------------------------------------
  // 16-bit white

  /** `PF_MAX_CHAN16`: the host's full-white level for 16-bit channels. */
  const MaxChannel16: nat := 0x8000

  /** The value a shader reads from an R16 UNORM texel. */
  function Unorm16(v: nat): real
    requires v <= 0xFFFF
  {
    v as real / 65535.0
  }

  /** A 16-bit white texel reads back as 32768/65535, a little over one half, not 1.0. */
  lemma White16IsNotFullRange()
    ensures Unorm16(MaxChannel16) == 32768.0 / 65535.0
    ensures 0.5 < Unorm16(MaxChannel16) < 1.0
    ensures Unorm16(0xFFFF) == 1.0
  {
  }
}

=== FILE: stable_sort.dfy ===
/**
 * A stable sort by decreasing key (`std::stable_sort` with a "greater"
 * comparator), modelled as insertion sort, and the filter that states its
 * stability: the elements of one key keep their relative order.
 */
module StableSort {
  /** Every element's key is at least the key of everything after it. */
  predicate SortedByKey<X(==)>(s: seq<X>, key: X -> nat)
    decreases |s|
  {
    |s| <= 1 || ((forall y :: y in s[1..] ==> key(y) <= key(s[0])) && SortedByKey(s[1..], key))
  }

  /** Insert `x` before the first element whose key is not larger, so that earlier equals stay first. */
  function InsertByKey<X(==)>(x: X, s: seq<X>, key: X -> nat): (r: seq<X>)
    requires SortedByKey(s, key)
    ensures multiset(r) == multiset(s) + multiset{x}
    ensures SortedByKey(r, key)
  {
    if |s| == 0 then [x]
    else if key(x) >= key(s[0]) then
      assert forall y :: y in s[1..] ==> y in s;
      [x] + s
    else
      var rest := InsertByKey(x, s[1..], key);
      assert s == [s[0]] + s[1..];
      assert forall y :: y in rest ==> key(y) <= key(s[0]) by {
        forall y | y in rest ensures key(y) <= key(s[0]) {
          assert y in multiset(rest);
        }
      }
      assert ([s[0]] + rest)[1..] == rest;
      [s[0]] + rest
  }

  /** Insertion sort by decreasing key; elements of equal key keep their order. */
  function SortByKey<X(==)>(s: seq<X>, key: X -> nat): (r: seq<X>)
    ensures multiset(r) == multiset(s)
    ensures SortedByKey(r, key)
  {
    if |s| == 0 then []
    else
      assert s == [s[0]] + s[1..];
      InsertByKey(s[0], SortByKey(s[1..], key), key)
  }

  /** The elements of `s` whose key is `v`, in their order in `s`. */
  function WithKey<X(==)>(s: seq<X>, key: X -> nat, v: nat): seq<X>
    decreases |s|
  {
    if |s| == 0 then [] else (if key(s[0]) == v then [s[0]] else []) + WithKey(s[1..], key, v)
  }

  lemma {:induction false} WithKeyAppend<X>(a: seq<X>, b: seq<X>, key: X -> nat, v: nat)
    ensures WithKey(a + b, key, v) == WithKey(a, key, v) + WithKey(b, key, v)
    decreases |a|
  {
    if |a| == 0 {
      assert a + b == b;
    } else {
      var h := if key(a[0]) == v then [a[0]] else [];
      assert (a + b)[0] == a[0];
      calc {
        WithKey(a + b, key, v);
        h + WithKey((a + b)[1..], key, v);
        { assert (a + b)[1..] == a[1..] + b; }
        h + WithKey(a[1..] + b, key, v);
        { WithKeyAppend(a[1..], b, key, v); }
        h + (WithKey(a[1..], key, v) + WithKey(b, key, v));
        (h + WithKey(a[1..], key, v)) + WithKey(b, key, v);
        WithKey(a, key, v) + WithKey(b, key, v);
      }
    }
  }

  lemma WithKeyCons<X>(y: X, t: seq<X>, key: X -> nat, v: nat)
    ensures WithKey([y] + t, key, v) == (if key(y) == v then [y] else []) + WithKey(t, key, v)
  {
    assert ([y] + t)[1..] == t;
  }

  lemma InsertUnfolds<X>(x: X, s: seq<X>, key: X -> nat)
    requires SortedByKey(s, key)
    ensures |s| == 0 || key(x) >= key(s[0]) ==> InsertByKey(x, s, key) == [x] + s
    ensures |s| > 0 && key(x) < key(s[0]) ==>
              SortedByKey(s[1..], key) && InsertByKey(x, s, key) == [s[0]] + InsertByKey(x, s[1..], key)
  {
  }

  /**
   * Inserting `x` keeps the order among elements of equal key: `x` lands
   * after every larger element and before every element of its own key.
   */
  lemma {:induction false} InsertKeepsTies<X>(x: X, s: seq<X>, key: X -> nat, v: nat)
    requires SortedByKey(s, key)
    ensures WithKey(InsertByKey(x, s, key), key, v) == (if key(x) == v then [x] else []) + WithKey(s, key, v)
    decreases |s|
  {
    InsertUnfolds(x, s, key);
    if |s| == 0 || key(x) >= key(s[0]) {
      WithKeyCons(x, s, key, v);
    } else {
      InsertKeepsTies(x, s[1..], key, v);
      PassLarger(x, s[0], InsertByKey(x, s[1..], key), s[1..], key, v);
      assert [s[0]] + s[1..] == s;
    }
  }

  /** Stepping past a larger head `y` keeps the tie property of the rest. */
  lemma PassLarger<X>(x: X, y: X, rest: seq<X>, t: seq<X>, key: X -> nat, v: nat)
    requires key(x) < key(y)
    requires WithKey(rest, key, v) == (if key(x) == v then [x] else []) + WithKey(t, key, v)
    ensures WithKey([y] + rest, key, v) == (if key(x) == v then [x] else []) + WithKey([y] + t, key, v)
  {
    var hx := if key(x) == v then [x] else [];
    var hy := if key(y) == v then [y] else [];
    calc {
      WithKey([y] + rest, key, v);
      { WithKeyCons(y, rest, key, v); }
      hy + WithKey(rest, key, v);
      hy + (hx + WithKey(t, key, v));
      { SwapEmpty(hy, hx, WithKey(t, key, v)); }
      hx + (hy + WithKey(t, key, v));
      { WithKeyCons(y, t, key, v); }
      hx + WithKey([y] + t, key, v);
    }
  }

  /** Two prefixes of which one is empty commute. */
  lemma SwapEmpty<X>(a: seq<X>, b: seq<X>, t: seq<X>)
    requires a == [] || b == []
    ensures a + (b + t) == b + (a + t)
  {
  }

  /** The sort is stable: for every key, the elements with that key keep their order. */
  lemma {:induction false} SortKeepsTies<X>(s: seq<X>, key: X -> nat, v: nat)
    ensures WithKey(SortByKey(s, key), key, v) == WithKey(s, key, v)
    decreases |s|
  {
    if |s| > 0 {
      SortKeepsTies(s[1..], key, v);
      InsertKeepsTies(s[0], SortByKey(s[1..], key), key, v);
    }
  }

  /** The head of a sorted sequence has the greatest key. */
  lemma SortedHeadIsMax<X>(s: seq<X>, d: X, key: X -> nat)
    requires SortedByKey(s, key)
    requires d in s
    ensures key(d) <= key(s[0])
  {
    if d != s[0] {
      assert s == [s[0]] + s[1..];
      assert d in s[1..];
    }
  }
}

=== FILE: vk_types.dfy ===
/**
 * The slice of the Vulkan object model that the plug-in's decision logic
 * looks at: formats, layouts, memory properties, create-infos and the
 * (resource, memory) pairs produced by the allocator.  Handles are opaque
 * numbers; 0 plays the role of VK_NULL_HANDLE.
 */
module VkTypes {

  type Byte = bv8

  /** Opaque Vulkan handle; `NullHandle` is VK_NULL_HANDLE. */
  type Handle = nat

  const NullHandle: Handle := 0

  datatype Format =
    | UndefinedFormat
    | R8G8B8A8Unorm
    | R16G16B16A16Unorm
    | R32G32B32A32Sfloat
    | R32G32Sfloat

  datatype ImageLayout =
    | Undefined
    | General
    | ColorAttachmentOptimal
    | ShaderReadOnlyOptimal
    | TransferSrcOptimal
    | TransferDstOptimal

  /** VkMemoryPropertyFlagBits; a flag set is a `set<MemoryProperty>`. */
  datatype MemoryProperty =
    | DeviceLocal
    | HostVisible
    | HostCoherent
    | HostCached
    | LazilyAllocated
    | Protected

  /** VkMemoryHeapFlagBits. */
  datatype HeapFlag = HeapDeviceLocal | HeapMultiInstance

  datatype MemoryType = MemoryType(propertyFlags: set<MemoryProperty>, heapIndex: nat)

  datatype MemoryHeap = MemoryHeap(size: nat, flags: set<HeapFlag>)

  /** VK_MAX_MEMORY_TYPES: the fixed capacity of VkPhysicalDeviceMemoryProperties::memoryTypes. */
  const MaxMemoryTypes: nat := 32

  type MemoryTypeTable = s: seq<MemoryType> | |s| <= MaxMemoryTypes

  /** VkPhysicalDeviceMemoryProperties, with `memoryTypeCount == |memoryTypes|`. */
  datatype MemoryProperties = MemoryProperties(memoryTypes: MemoryTypeTable, memoryHeaps: seq<MemoryHeap>)

  datatype SharingMode = Exclusive | Concurrent

  datatype BufferUsage = BufferTransferSrc | BufferTransferDst | UniformBuffer | VertexBuffer

  datatype ImageUsage = ImageTransferSrc | ImageTransferDst | Sampled | ColorAttachment

  datatype ImageType = Image1D | Image2D | Image3D

  datatype ImageTiling = TilingOptimal | TilingLinear

  datatype Filter = Nearest | Linear

  datatype Extent3D = Extent3D(width: nat, height: nat, depth: nat)

  /** VkBufferCreateInfo, restricted to the fields the plug-in sets. */
  datatype BufferCreateInfo = BufferCreateInfo(size: nat, usage: set<BufferUsage>, sharingMode: SharingMode)

  /**
   * VkImageCreateInfo.  Every field the plug-in sets is here, so datatype
   * equality is the field-by-field `operator==` the image cache relies on.
   */
  datatype ImageCreateInfo = ImageCreateInfo(
    flags: nat,
    imageType: ImageType,
    format: Format,
    extent: Extent3D,
    mipLevels: nat,
    arrayLayers: nat,
    samples: nat,
    tiling: ImageTiling,
    usage: set<ImageUsage>,
    sharingMode: SharingMode,
    initialLayout: ImageLayout)

  /** A value-initialised `vk::ImageCreateInfo{}`: every field at its zero enumerator. */
  const DefaultImageCreateInfo: ImageCreateInfo :=
    ImageCreateInfo(0, Image1D, UndefinedFormat, Extent3D(0, 0, 0), 0, 0, 1,
                    TilingOptimal, {}, Exclusive, Undefined)

  /** VkMemoryRequirements as reported by the driver for one resource. */
  datatype MemoryRequirements = MemoryRequirements(size: nat, memoryTypeBits: bv32)

  /**
   * One VkDeviceMemory block together with how it was allocated: its size,
   * memory type and the VkMemoryDedicatedAllocateInfo it was tagged with.
   */
  datatype DeviceMemory = DeviceMemory(
    handle: Handle,
    allocationSize: nat,
    memoryTypeIndex: nat,
    dedicatedBuffer: Handle,
    dedicatedImage: Handle)

  /** The (buffer, memory) pair `AllocateBuffer` hands out, with its bind offset. */
  datatype BufferAllocation = BufferAllocation(
    buffer: Handle,
    info: BufferCreateInfo,
    memory: DeviceMemory,
    bindOffset: nat)

  /** The (image, memory) pair `AllocateImage` hands out, with its bind offset. */
  datatype ImageAllocation = ImageAllocation(
    image: Handle,
    info: ImageCreateInfo,
    memory: DeviceMemory,
    bindOffset: nat)

  /**
   * What the driver answers during one allocation: whether the resource was
   * created (and its handle), its memory requirements, whether
   * vkAllocateMemory succeeded (and the memory handle) and whether the bind
   * call succeeded.
   */
  datatype AllocOracle = AllocOracle(
    createOk: bool,
    objectHandle: Handle,
    requirements: MemoryRequirements,
    allocateOk: bool,
    memoryHandle: Handle,
    bindOk: bool)

  /**
   * How an entry point ends when it does not succeed: one of the two error
   * codes the plug-in returns, or a standard-library exception
   * (`std::out_of_range` from `.at`, `std::bad_optional_access` from
   * `.value()`) that the entry point's `catch (PF_Err&)` does not catch.
   */
  datatype PluginError = InternalStructDamaged | OutOfMemory | UncaughtOutOfRange | UncaughtBadOptionalAccess
}

=== FILE: vulkan_utils.dfy ===
/**
 * The generic Vulkan helpers: the depth-to-format table, the first-match
 * memory-type search, the allocate/bind sequences for buffers and images,
 * the shader-module length guard and the largest-heap search.  Every driver
 * call is an oracle answer passed in as data.
 */
module VulkanUtils {
  import opened Wrappers
  import opened VkTypes

  /** Render format of each depth class: 8, 16 and 32 bits per channel. */
  const RenderFormats: seq<Format> := [R8G8B8A8Unorm, R16G16B16A16Unorm, R32G32B32A32Sfloat]

  /** Number of depth classes, the size of every per-depth table. */
  const DepthClassCount: nat := 3

  /**
   * `RenderFormats.at(depth)`: a bounds-checked lookup.  An out-of-range
   * depth throws std::out_of_range, modelled as `None`; it never clamps or wraps.
   */
  function DepthToFormat(depth: nat): (r: Option<Format>)
    ensures depth == 0 ==> r == Some(R8G8B8A8Unorm)
    ensures depth == 1 ==> r == Some(R16G16B16A16Unorm)
    ensures depth == 2 ==> r == Some(R32G32B32A32Sfloat)
    ensures depth >= DepthClassCount ==> r == None
  {
    if depth < |RenderFormats| then Some(RenderFormats[depth]) else None
  }

  // ---------------------------------------------------------------------------
  // Memory-type search

  /** Default `ExcludeProperties` of FindMemoryTypeIndex, AllocateBuffer and AllocateImage. */
  const DefaultExcludedProperties: set<MemoryProperty> := {Protected}

  /** Default sharing mode of AllocateBuffer. */
  const DefaultSharingMode: SharingMode := Exclusive

  /** `((mask >> i) & 1) == 1` */
  predicate MaskBit(mask: bv32, i: nat)
    requires i < 32
  {
    (mask >> i) & 1 == 1
  }

  /** Memory type `i` is allowed by the mask, has every required flag and no excluded flag. */
  predicate Suitable(types: MemoryTypeTable, mask: bv32, required: set<MemoryProperty>,
                     excluded: set<MemoryProperty>, i: nat)
    requires i < |types|
  {
    && MaskBit(mask, i)
    && required <= types[i].propertyFlags
    && types[i].propertyFlags * excluded == {}
  }

  predicate HasSuitableType(types: MemoryTypeTable, mask: bv32, required: set<MemoryProperty>,
                            excluded: set<MemoryProperty>)
  {
    exists i :: 0 <= i < |types| && Suitable(types, mask, required, excluded, i)
  }

  /** `k` is the least suitable index. */
  predicate IsFirstSuitable(types: MemoryTypeTable, mask: bv32, required: set<MemoryProperty>,
                            excluded: set<MemoryProperty>, k: int)
  {
    && 0 <= k < |types|
    && Suitable(types, mask, required, excluded, k)
    && forall j :: 0 <= j < k ==> !Suitable(types, mask, required, excluded, j)
  }

  /** The ascending scan of the memory types, starting at index `i`. */
  function FindMemoryTypeIndexFrom(types: MemoryTypeTable, mask: bv32, required: set<MemoryProperty>,
                                   excluded: set<MemoryProperty>, i: nat): (r: int)
    requires i <= |types|
    decreases |types| - i
    ensures r == -1 || i <= r < |types|
    ensures r == -1 <==> forall j :: i <= j < |types| ==> !Suitable(types, mask, required, excluded, j)
    ensures r != -1 ==> Suitable(types, mask, required, excluded, r)
    ensures r != -1 ==> forall j :: i <= j < r ==> !Suitable(types, mask, required, excluded, j)
  {
    if i == |types| then -1
    else if Suitable(types, mask, required, excluded, i) then i
    else FindMemoryTypeIndexFrom(types, mask, required, excluded, i + 1)
  }

  /**
   * The least memory-type index below memoryTypeCount whose mask bit is set,
   * whose flags include `properties` and avoid `exclude`; -1 when none does.
   */
  function FindMemoryTypeIndex(props: MemoryProperties, mask: bv32, properties: set<MemoryProperty>,
                               exclude: set<MemoryProperty> := DefaultExcludedProperties): (r: int)
    ensures r == -1 <==> !HasSuitableType(props.memoryTypes, mask, properties, exclude)
    ensures r != -1 ==> IsFirstSuitable(props.memoryTypes, mask, properties, exclude, r)
  {
    FindMemoryTypeIndexFrom(props.memoryTypes, mask, properties, exclude, 0)
  }

  lemma {:induction false} ScanIgnoresHighMaskBits(types: MemoryTypeTable, m1: bv32, m2: bv32,
                                                    required: set<MemoryProperty>,
                                                    excluded: set<MemoryProperty>, i: nat)
    requires i <= |types|
    requires forall j :: i <= j < |types| ==> MaskBit(m1, j) == MaskBit(m2, j)
    ensures FindMemoryTypeIndexFrom(types, m1, required, excluded, i)
         == FindMemoryTypeIndexFrom(types, m2, required, excluded, i)
    decreases |types| - i
  {
    if i < |types| {
      ScanIgnoresHighMaskBits(types, m1, m2, required, excluded, i + 1);
    }
  }

  /** Mask bits at or above memoryTypeCount are never consulted. */
  lemma FindMemoryTypeIndexIgnoresHighMaskBits(props: MemoryProperties, m1: bv32, m2: bv32,
                                               properties: set<MemoryProperty>,
                                               exclude: set<MemoryProperty>)
    requires forall j :: 0 <= j < |props.memoryTypes| ==> MaskBit(m1, j) == MaskBit(m2, j)
    ensures FindMemoryTypeIndex(props, m1, properties, exclude)
         == FindMemoryTypeIndex(props, m2, properties, exclude)
  {
    ScanIgnoresHighMaskBits(props.memoryTypes, m1, m2, properties, exclude, 0);
  }

  /**
   * A mask with the single bit `k`: the search returns `k` when type `k`
   * qualifies and -1 otherwise, in particular when type `k` carries an
   * excluded flag.
   */
  lemma {:induction false} SingleBitMaskSelectsOnlyThatType(props: MemoryProperties, k: nat,
                                                            properties: set<MemoryProperty>,
                                                            exclude: set<MemoryProperty>)
    requires k < |props.memoryTypes|
    ensures Suitable(props.memoryTypes, 1 << k, properties, exclude, k)
        ==> FindMemoryTypeIndex(props, 1 << k, properties, exclude) == k
    ensures props.memoryTypes[k].propertyFlags * exclude != {}
        ==> FindMemoryTypeIndex(props, 1 << k, properties, exclude) == -1
  {
    var types := props.memoryTypes;
    var mask: bv32 := 1 << k;
    forall j | 0 <= j < |types| && j != k
      ensures !Suitable(types, mask, properties, exclude, j)
    {
      SingleBitMask(k, j);
    }
  }

  lemma SingleBitMask(k: nat, j: nat)
    requires k < 32 && j < 32 && j != k
    ensures !MaskBit(1 << k, j)
  {
  }

  // ---------------------------------------------------------------------------
  // Allocation

  /**
   * vkAllocateMemory with a VkMemoryDedicatedAllocateInfo naming at most one
   * buffer or image (NullHandle for neither).
   */
  function AllocateDeviceMemory(allocateOk: bool, memoryHandle: Handle, size: nat, memoryTypeIndex: nat,
                                dedicatedBuffer: Handle := NullHandle,
                                dedicatedImage: Handle := NullHandle): (r: Option<DeviceMemory>)
    ensures r.Some? <==> allocateOk
    ensures r.Some? ==> && r.value.handle == memoryHandle
                        && r.value.allocationSize == size
                        && r.value.memoryTypeIndex == memoryTypeIndex
                        && r.value.dedicatedBuffer == dedicatedBuffer
                        && r.value.dedicatedImage == dedicatedImage
  {
    if allocateOk then Some(DeviceMemory(memoryHandle, size, memoryTypeIndex, dedicatedBuffer, dedicatedImage))
    else None
  }

  /**
   * Create a buffer, pick a memory type from the buffer's own requirement
   * mask, allocate dedicated memory of the required size and bind it at
   * offset 0.  Any failing step yields `None`.
   */
  function AllocateBuffer(props: MemoryProperties, o: AllocOracle, size: nat, usage: set<BufferUsage>,
                          properties: set<MemoryProperty>,
                          exclude: set<MemoryProperty> := DefaultExcludedProperties,
                          sharing: SharingMode := DefaultSharingMode): (r: Option<BufferAllocation>)
    ensures r.Some? <==> && o.createOk
                         && HasSuitableType(props.memoryTypes, o.requirements.memoryTypeBits, properties, exclude)
                         && o.allocateOk
                         && o.bindOk
    ensures r.Some? ==>
      && r.value.buffer == o.objectHandle
      && r.value.info == BufferCreateInfo(size, usage, sharing)
      && r.value.memory.handle == o.memoryHandle
      && r.value.memory.allocationSize == o.requirements.size
      && IsFirstSuitable(props.memoryTypes, o.requirements.memoryTypeBits, properties, exclude,
                         r.value.memory.memoryTypeIndex)
      && r.value.memory.dedicatedBuffer == r.value.buffer
      && r.value.memory.dedicatedImage == NullHandle
      && r.value.bindOffset == 0
  {
    if !o.createOk then None
    else
      var index := FindMemoryTypeIndex(props, o.requirements.memoryTypeBits, properties, exclude);
      if index < 0 then None
      else
        match AllocateDeviceMemory(o.allocateOk, o.memoryHandle, o.requirements.size, index,
                                   o.objectHandle, NullHandle)
        case None => None
        case Some(memory) =>
          if !o.bindOk then None
          else Some(BufferAllocation(o.objectHandle, BufferCreateInfo(size, usage, sharing), memory, 0))
  }

  /** The same sequence as AllocateBuffer for an image; the memory is dedicated to the image. */
  function AllocateImage(props: MemoryProperties, o: AllocOracle, info: ImageCreateInfo,
                         properties: set<MemoryProperty>,
                         exclude: set<MemoryProperty> := DefaultExcludedProperties): (r: Option<ImageAllocation>)
    ensures r.Some? <==> && o.createOk
                         && HasSuitableType(props.memoryTypes, o.requirements.memoryTypeBits, properties, exclude)
                         && o.allocateOk
                         && o.bindOk
    ensures r.Some? ==>
      && r.value.image == o.objectHandle
      && r.value.info == info
      && r.value.memory.handle == o.memoryHandle
      && r.value.memory.allocationSize == o.requirements.size
      && IsFirstSuitable(props.memoryTypes, o.requirements.memoryTypeBits, properties, exclude,
                         r.value.memory.memoryTypeIndex)
      && r.value.memory.dedicatedBuffer == NullHandle
      && r.value.memory.dedicatedImage == r.value.image
      && r.value.bindOffset == 0
  {
    if !o.createOk then None
    else
      var index := FindMemoryTypeIndex(props, o.requirements.memoryTypeBits, properties, exclude);
      if index < 0 then None
      else
        match AllocateDeviceMemory(o.allocateOk, o.memoryHandle, o.requirements.size, index,
                                   NullHandle, o.objectHandle)
        case None => None
        case Some(memory) =>
          if !o.bindOk then None
          else Some(ImageAllocation(o.objectHandle, info, memory, 0))
  }

  /** With the default exclusion, no allocation ever lands in protected memory. */
  lemma DefaultExclusionAvoidsProtectedMemory(props: MemoryProperties, o: AllocOracle, size: nat,
                                              usage: set<BufferUsage>, properties: set<MemoryProperty>)
    ensures var r := AllocateBuffer(props, o, size, usage, properties);
            r.Some? ==> && r.value.info.sharingMode == Exclusive
                        && Protected !in props.memoryTypes[r.value.memory.memoryTypeIndex].propertyFlags
  {
    var r := AllocateBuffer(props, o, size, usage, properties);
    if r.Some? {
      var k := r.value.memory.memoryTypeIndex;
      assert Suitable(props.memoryTypes, o.requirements.memoryTypeBits, properties, DefaultExcludedProperties, k);
      var flags := props.memoryTypes[k].propertyFlags;
      assert flags * DefaultExcludedProperties == {};
      assert Protected in flags ==> Protected in flags * DefaultExcludedProperties;
    }
  }

  // ---------------------------------------------------------------------------
  // Shader modules

  /** A created shader module: its handle, codeSize, and the code read as 32-bit words. */
  datatype ShaderModule = ShaderModule(handle: Handle, codeSize: nat, words: seq<seq<Byte>>)

  /** The code reinterpreted as a sequence of 4-byte words (`reinterpret_cast<const uint32_t*>`). */
  function CodeWords(code: seq<Byte>): (words: seq<seq<Byte>>)
    requires |code| % 4 == 0
    ensures |words| == |code| / 4
    ensures forall k :: 0 <= k < |words| ==> |words[k]| == 4
    decreases |code|
  {
    if |code| == 0 then [] else [code[..4]] + CodeWords(code[4..])
  }

  function Concat(words: seq<seq<Byte>>): seq<Byte>
  {
    if |words| == 0 then [] else words[0] + Concat(words[1..])
  }

  /** Reading the code as words loses no byte: concatenating the words gives the code back. */
  lemma {:induction false} CodeWordsRoundTrip(code: seq<Byte>)
    requires |code| % 4 == 0
    ensures Concat(CodeWords(code)) == code
    decreases |code|
  {
    if |code| != 0 {
      CodeWordsRoundTrip(code[4..]);
      assert code == code[..4] + code[4..];
    }
  }

  /**
   * Rejects code whose length is zero or not a multiple of 4; otherwise
   * passes exactly the code length as codeSize to vkCreateShaderModule.
   */
  function LoadShaderModule(code: seq<Byte>, createOk: bool, handle: Handle): (r: Option<ShaderModule>)
    ensures r.Some? <==> |code| > 0 && |code| % 4 == 0 && createOk
    ensures r.Some? ==> && r.value.handle == handle
                        && r.value.codeSize == |code|
                        && |r.value.words| == |code| / 4
                        && Concat(r.value.words) == code
  {
    if |code| == 0 || |code| % 4 != 0 then None
    else if !createOk then None
    else
      CodeWordsRoundTrip(code);
      Some(ShaderModule(handle, |code|, CodeWords(code)))
  }

  /** Lengths 3 and 5 are rejected before the driver is called; length 8 reaches it. */
  lemma ShaderLengthGuardExamples(c3: seq<Byte>, c5: seq<Byte>, c8: seq<Byte>, handle: Handle)
    requires |c3| == 3 && |c5| == 5 && |c8| == 8
    ensures forall ok: bool :: LoadShaderModule(c3, ok, handle) == None
    ensures forall ok: bool :: LoadShaderModule(c5, ok, handle) == None
    ensures LoadShaderModule(c8, true, handle).Some?
    ensures LoadShaderModule(c8, true, handle).value.codeSize == 8
  {
  }

  // ---------------------------------------------------------------------------
  // Largest heap

  predicate HeapMatches(heaps: seq<MemoryHeap>, flags: set<HeapFlag>, i: nat)
    requires i < |heaps|
  {
    flags <= heaps[i].flags
  }

  /** Some heap has all the flags and a non-zero size. */
  predicate HasCandidateHeap(heaps: seq<MemoryHeap>, flags: set<HeapFlag>)
  {
    exists i :: 0 <= i < |heaps| && HeapMatches(heaps, flags, i) && heaps[i].size > 0
  }

  /**
   * `k` is the answer the strict-max scan must give: a matching heap of
   * greatest size, and the lowest-index one among equals.
   */
  predicate IsLargestHeap(heaps: seq<MemoryHeap>, flags: set<HeapFlag>, k: int)
  {
    && 0 <= k < |heaps|
    && HeapMatches(heaps, flags, k)
    && heaps[k].size > 0
    && (forall j :: 0 <= j < |heaps| && HeapMatches(heaps, flags, j) ==> heaps[j].size <= heaps[k].size)
    && (forall j :: 0 <= j < k && HeapMatches(heaps, flags, j) ==> heaps[j].size < heaps[k].size)
  }

  /** What the scan knows after looking at heaps `0 .. i-1`; index -1 stands for `~size_t(0)`. */
  predicate ScanInvariant(heaps: seq<MemoryHeap>, flags: set<HeapFlag>, i: nat, maxSize: nat, index: int)
    requires i <= |heaps|
  {
    if index == -1 then
      && maxSize == 0
      && forall j :: 0 <= j < i && HeapMatches(heaps, flags, j) ==> heaps[j].size == 0
    else
      && 0 <= index < i
      && HeapMatches(heaps, flags, index)
      && heaps[index].size == maxSize
      && maxSize > 0
      && (forall j :: 0 <= j < i && HeapMatches(heaps, flags, j) ==> heaps[j].size <= maxSize)
      && (forall j :: 0 <= j < index && HeapMatches(heaps, flags, j) ==> heaps[j].size < maxSize)
  }

  /** The loop of GetLargestPhysicalDeviceHeap from heap `i` on, with its running maximum. */
  function LargestHeapScan(heaps: seq<MemoryHeap>, flags: set<HeapFlag>, i: nat, maxSize: nat, index: int): (r: int)
    requires i <= |heaps|
    requires ScanInvariant(heaps, flags, i, maxSize, index)
    decreases |heaps| - i
    ensures r == -1 <==> !HasCandidateHeap(heaps, flags)
    ensures r != -1 ==> IsLargestHeap(heaps, flags, r)
  {
    if i == |heaps| then index
    else if HeapMatches(heaps, flags, i) && heaps[i].size > maxSize then
      LargestHeapScan(heaps, flags, i + 1, heaps[i].size, i)
    else
      LargestHeapScan(heaps, flags, i + 1, maxSize, index)
  }

  /** Index of the largest matching heap, or -1 (`~0`) when no matching heap is non-empty. */
  function LargestHeapIndex(props: MemoryProperties, flags: set<HeapFlag> := {HeapDeviceLocal}): (r: int)
    ensures r == -1 <==> !HasCandidateHeap(props.memoryHeaps, flags)
    ensures r != -1 ==> IsLargestHeap(props.memoryHeaps, flags, r)
  {
    LargestHeapScan(props.memoryHeaps, flags, 0, 0, -1)
  }

  /**
   * `memoryHeaps[HeapIndex]`.  When no matching heap is non-empty the index
   * stays `~0` and the access is out of bounds, hence the precondition.
   */
  function GetLargestPhysicalDeviceHeap(props: MemoryProperties, flags: set<HeapFlag> := {HeapDeviceLocal}): (r: MemoryHeap)
    requires HasCandidateHeap(props.memoryHeaps, flags)
    ensures r in props.memoryHeaps
    ensures flags <= r.flags && r.size > 0
    ensures forall h :: h in props.memoryHeaps && flags <= h.flags ==> h.size <= r.size
    ensures exists k :: IsLargestHeap(props.memoryHeaps, flags, k) && r == props.memoryHeaps[k]
  {
    var k := LargestHeapIndex(props, flags);
    var heaps := props.memoryHeaps;
    assert forall h :: h in heaps && flags <= h.flags ==> h.size <= heaps[k].size by {
      forall h | h in heaps && flags <= h.flags ensures h.size <= heaps[k].size {
        var j :| 0 <= j < |heaps| && heaps[j] == h;
        assert HeapMatches(heaps, flags, j);
      }
    }
    heaps[k]
  }
}

=== FILE: wrappers.dfy ===
/** Failure-compatible result types shared by every module of the model. */
module Wrappers {

  /** `std::optional`: the allocator and loader functions return `None` on any failure. */
  datatype Option<+T> = None | Some(value: T) {
    predicate IsFailure() {
      None?
    }

    function PropagateFailure<U>(): Option<U>
      requires None?
    {
      None
    }

    function Extract(): T
      requires Some?
    {
      value
    }
  }

  /** A result carrying either a value or an error code. */
  datatype Result<+R, +E> = Ok(value: R) | Err(error: E) {
    predicate IsFailure() {
      Err?
    }

    function PropagateFailure<U>(): Result<U, E>
      requires Err?
    {
      Err(error)
    }

    function Extract(): R
      requires Ok?
    {
      value
    }
  }
}
